=== FILE: README.md ===
# Q-A-Web-Application auth-server core, modelled in Dafny

This project models the decision logic of the Express back end of a
document question-answering application: users upload PDF and Word files,
the server extracts and stores their text, and questions about a document are
answered by a hosted language model. The model covers these parts:

- **Text extraction** (`extraction.dfy`):
  - `normalizeWhitespace` as its four regex stages;
  - `pdfContainsImages` as the latin1 byte scan for `/Subtype\s*/Image`;
  - `extractTextFromFile` as the MIME-type dispatch, with the fail-closed
    image check and the strict `> 1000` character rule for PDFs.
- **Upload intake** (`upload.dfy`): the multer filename sanitiser and stored
  filename, the MIME allow-list, and the `MAX_UPLOAD_MB` size limit.
- **Document controller** (`documents.dfy`):
  - `uploadDocument`: status ordering, the `MAX_TEXT_CHARS` cap, the
    empty-text rejection and the recorded path;
  - `askQuestion`: the 90,000-word context truncation, the exact prompt, and
    its checks, all made before the upstream call;
  - `askGroqQuestion` together with `callGroqAPI`.
- **Bearer authentication** (`auth.dfy`): `requireAuth`.
- **User controller** (`users.dfy`): a refresh-token state machine over the
  user table (`signup`, `login`, `refresh`, `logout`).
- **Conversation controller** (`conversations.dfy`): a store of
  conversations, messages and conversation/document links, with
  ownership-guarded operations, cascading delete and set-union linking.
- **Error middleware** (`errors.dfy`): `errorHandler` and `notFoundHandler`.

Shared modules model the JavaScript built-ins the code relies on:

- `js_text.dfy`: `\s`, `trim`, `split(/\s+/)`, `join` and `startsWith`.
- `js_number.dfy`: `parseInt(s, 10)` and the `parseInt(env || '', 10) || d`
  idiom.
- `runs.dfy`: a rewrite that turns each maximal run of a character class into
  one character, as `/X+/g` does.
- `ordering.dfy`: `ORDER BY` over rows named by id.
- `seqs.dfy`: filter and count.

The model's conventions:

- An Express handler's result is an `Outcome`: either a reply with a status
  and a body, or an error passed to `next`. `Errors.Respond` composes an
  `Outcome` with the error handler.
- Libraries and I/O become inputs:
  - `jwt.verify` and `jwt.decode` become function parameters, and so do
    bcrypt's hash and compare.
  - The Groq HTTP call becomes a function from the request to an `Upstream`
    result.
  - What pdf-parse, mammoth and `fs.readFileSync` produced for one file is
    passed in as a value.
  - The tokens that `jwt.sign` produces during a request, and the
    `Date.now()` and `Math.random()` readings, are parameters.
  - The database's clock is a `now` parameter.
- Stores:
  - The user and document tables are sequences: the row with id `k` is
    element `k - 1`, since ids are auto-increment and neither table loses rows
    in this core.
  - Conversations and messages are maps with next-id counters, because
    conversations can be deleted. The link table is a set of
    (conversation, document) pairs.
  - `Conversations.Store.documentOwner` is the `userId` column of the
    document table, keyed by document id: `Conversations.DocumentOwners`
    derives it from the sequence of `Documents` rows, so document `k` is
    owned by `docs[k - 1].userId`. The conversation operations read only that
    column.

Where the code's behaviour differs from what its comments and the
application's documentation describe, the model follows the code:

- **PDFs with images.** A PDF containing images is rejected with "Unable to
  verify PDF contents", not with "PDF contains images which are not
  allowed". The inner `throw` is caught by its own `catch`
  (`Extraction.ImageMessageSwallowed`).
- **Rejected uploads answer 500.** A file of a disallowed type and a file
  over the size limit fail inside multer with plain `Error`s. The error
  handler answers those with 500 Internal Server Error, not 415 or 413
  (`Upload.IntakeFailuresAre500`).
- **Uploads by subject 0.** The upload route runs `requireAuth` before
  multer, so a request without a valid access token is refused before any
  file is stored. `uploadDocument` itself checks `req.auth?.sub` only after
  extraction, and treats a falsy `sub` as unauthenticated. The one caller
  that passes `requireAuth` but fails this check is a verified token whose
  `sub` is 0. That request is answered 401, and its stored file is left on
  disk (`Documents.UploadDocument`, whose `caller` is the `sub` that
  `requireAuth` set).
- **`askQuestion`.**
  - It does not check that the document belongs to the caller.
  - It accepts `GROQ_API_KEY || GROQ_API_TOKEN`. `callGroqAPI` reads only
    `GROQ_API_KEY`.
- **Links to missing documents.** `linkDocuments` creates links to document
  ids that do not exist, because the link table has no foreign key.
- **Access-token secrets.** Access tokens are signed with
  `ACCESS_TOKEN_SECRET` (`controllers/user.controller.ts:16`). `requireAuth`
  verifies them with `JWT_ACCESS_SECRET`. The model keeps the two secrets
  apart: the verifier is a parameter of `Auth.RequireAuth`.

## Model

| member | source | states |
|---|---|---|
| `Extraction.CrToLf` | auth-server/src/services/text-extraction.service.ts:54 | the first stage leaves no CR, never lengthens, and introduces no character except LF |
| `Extraction.NormalizeWhitespace` | auth-server/src/services/text-extraction.service.ts:53-55 | the output has no CR, tab, form feed, vertical tab or NBSP, no two consecutive spaces, and is never longer than the input |
| `Extraction.NormalizeFixpoint` | auth-server/src/services/text-extraction.service.ts:53-55 | normalisation leaves a text unchanged exactly when the text is already in that canonical form |
| `Extraction.NormalizeIdempotent` | auth-server/src/services/text-extraction.service.ts:54 | normalising twice equals normalising once |
| `Extraction.NormalizeKeepsText` | auth-server/src/services/text-extraction.service.ts:54 | never lengthens; every character other than CR, LF, tab, FF, VT, NBSP and space survives, in order |
| `Extraction.NormalizeLineBreaks` | auth-server/src/services/text-extraction.service.ts:54 | LFs out plus CR LF pairs in equal LFs in plus CRs in: each CR LF and each lone CR becomes one LF, and existing LFs are kept |
| `Extraction.Latin1` | auth-server/src/services/text-extraction.service.ts:60 | decoding as latin1 maps each byte to the character with the same code, one for one |
| `Extraction.Latin1Spaces` | auth-server/src/services/text-extraction.service.ts:60-61 | over latin1 bytes, `\s` matches exactly 0x09-0x0D, 0x20 and 0xA0 |
| `Extraction.ScanFrom` | auth-server/src/services/text-extraction.service.ts:61 | the search finds a match exactly when one starts at or after the given position |
| `Extraction.PdfContainsImages` | auth-server/src/services/text-extraction.service.ts:57-62 | true iff the latin1 text holds `/Subtype`, then zero or more `\s`, then `/Image` |
| `Extraction.ExtractTextFromFile` | auth-server/src/services/text-extraction.service.ts:8-51 | text is only extracted for PDF or Word types and is normalised; an unreadable or image-bearing PDF gives "Unable to verify PDF contents"; an accepted PDF had over 1000 trimmed characters; Word types fail iff mammoth throws |
| `Extraction.ImageMessageSwallowed` | auth-server/src/services/text-extraction.service.ts:11-19 | a PDF with the image marker is rejected with "Unable to verify PDF contents", never with the images message |
| `Extraction.PdfAcceptance` | auth-server/src/services/text-extraction.service.ts:21-35 | past the scan, parser failure and trimmed text of at most 1000 characters give the no-extractable-text error; longer text yields its normalised trimmed form |
| `Extraction.WordAndOtherDispatch` | auth-server/src/services/text-extraction.service.ts:37-50 | Word types yield normalised raw text (empty when absent) or mammoth's error; `image/*` gives "Image files are not allowed"; other types give "Unsupported file type for extraction" |
| `Extraction.DispatchByType` | auth-server/src/services/text-extraction.service.ts:8-51 | the result depends only on the MIME type and the inputs that type's branch reads |
| `Runs.Collapse` | auth-server/src/services/text-extraction.service.ts:54 | `/X+/g` to one character: never lengthens, no two adjacent class members remain, all remaining members are the replacement, nothing new appears |
| `Runs.CollapseFixpoint` | auth-server/src/services/text-extraction.service.ts:54 | a run collapse leaves a string unchanged iff it is already collapsed |
| `Runs.CollapseIdempotent` | auth-server/src/middlewares/upload.middleware.ts:18 | collapsing runs twice equals once |
| `Runs.CollapseKeeps` | auth-server/src/middlewares/upload.middleware.ts:18 | characters outside the class other than the replacement are kept in order |
| `Runs.CollapseCount` | auth-server/src/middlewares/upload.middleware.ts:18 | the replacement occurs once per maximal run, plus its own occurrences outside the class |
| `Runs.CollapseCountOther` | auth-server/src/services/text-extraction.service.ts:54 | any other character outside the class keeps its number of occurrences |
| `JsText.Trim` | auth-server/src/controllers/document.controller.ts:154 | the result is a contiguous piece of the input with whitespace-only margins, with non-whitespace ends, and empty iff the input is all whitespace |
| `JsText.SplitWs` | auth-server/src/controllers/document.controller.ts:155 | `split(/\s+/)` yields at least one piece, and no piece holds whitespace |
| `JsText.SplitWsCollapses` | auth-server/src/controllers/document.controller.ts:155 | the pieces of `split(/\s+/)`, joined by single spaces, are the text with each whitespace run replaced by one space, so the pieces are exactly the text between the runs |
| `Runs.CollapseKeepsPrefix` | auth-server/src/controllers/document.controller.ts:155 | a prefix without class characters passes through a run collapse unchanged |
| `Runs.CollapseRunPrefix` | auth-server/src/controllers/document.controller.ts:155 | a leading run of class characters becomes one replacement, or nothing inside an open run |
| `JsText.Join` | auth-server/src/controllers/document.controller.ts:156 | `join` of no words is empty; otherwise the result starts with the first word |
| `JsText.JoinSingleSpaced` | auth-server/src/controllers/document.controller.ts:156 | joining words with ' ' gives a non-empty text with non-space ends whose every space is a single ' ' between words |
| `JsText.SplitYieldsWords` | auth-server/src/controllers/document.controller.ts:155 | splitting trimmed non-empty text on `\s+` yields only non-empty, whitespace-free words |
| `JsText.SplitJoin` | auth-server/src/controllers/document.controller.ts:155-156 | joining words with single spaces and splitting on `\s+` gives the words back |
| `JsText.JoinEnds` | auth-server/src/controllers/document.controller.ts:156 | a space-joined list of words is non-empty and has non-whitespace ends |
| `JsNumber.Decimal` | auth-server/src/middlewares/upload.middleware.ts:19 | a number prints as a non-empty digit string without leading zero |
| `JsNumber.ParseInt` | auth-server/src/middlewares/auth.middleware.ts:34 | empty or all-whitespace input is NaN; a number is read only where the text holds a digit; a negative number needs a minus sign |
| `JsNumber.ParseIntDecimal` | auth-server/src/controllers/conversation.controller.ts:22 | `parseInt(s, 10)` reads back a printed number, and its negation, whatever non-digit text follows |
| `JsNumber.EnvIntOr` | auth-server/src/controllers/document.controller.ts:53 | `parseInt(env \|\| '', 10) \|\| d` is non-zero for non-zero `d`, is `d` when unset, and otherwise is the parsed value |
| `JsNumber.EnvIntOrDecimal` | auth-server/src/middlewares/upload.middleware.ts:39 | a numeric variable gives its value, except 0, which gives the default |
| `Errors.ErrorHandler` | auth-server/src/middlewares/error.middleware.ts:20-52 | ApiError keeps status, message and details; otherwise 400 iff validation error, 401 iff JWT error, 403 iff message "Not allowed by CORS", else 500 "Internal Server Error" with an error field iff not production; the 400 body is "Validation failed" with the items' messages and paths, 401 is "Invalid or expired token", 403 is "Origin not allowed", and the development error field holds the thrown message and stack |
| `Errors.ProductionHidesInternals` | auth-server/src/middlewares/error.middleware.ts:46-51 | in production a 500 body carries no error details |
| `Errors.NotFoundHandler` | auth-server/src/middlewares/error.middleware.ts:16-18 | always 404 "Not Found" |
| `Errors.Respond` | auth-server/src/middlewares/error.middleware.ts:20-52 | a handler's reply is sent as is; an error passed to `next` is answered with the error handler's status and body |
| `Auth.BearerToken` | auth-server/src/middlewares/auth.middleware.ts:24-28 | a token is found iff the header starts with exactly "Bearer ", and header = "Bearer " + token |
| `Auth.BearerRoundTrip` | auth-server/src/middlewares/auth.middleware.ts:28 | the header "Bearer " + t yields t |
| `Auth.SubjectId` | auth-server/src/middlewares/auth.middleware.ts:31-37 | a missing `sub` gives no id; a numeric `sub` is the id; a string `sub` is read with `parseInt` |
| `Auth.RequireAuth` | auth-server/src/middlewares/auth.middleware.ts:23-43 | every refusal is 401 Unauthorized; a missing or non-Bearer header or an unusable secret is refused; success means the token verified to claims whose `sub` gives the id |
| `Auth.AcceptsVerifiedBearer` | auth-server/src/middlewares/auth.middleware.ts:30-39 | a Bearer token that verifies to a usable `sub` authenticates as that id |
| `Auth.LowerCaseSchemeRefused` | auth-server/src/middlewares/auth.middleware.ts:25-27 | the scheme test is case-sensitive: "bearer " is refused |
| `Upload.SanitizeFilename` | auth-server/src/middlewares/upload.middleware.ts:18 | the safe name never lengthens and holds only `[A-Za-z0-9_.-]` |
| `Upload.SanitizeRuns` | auth-server/src/middlewares/upload.middleware.ts:18 | one `_` per maximal run of disallowed characters, plus the original underscores; all other allowed characters kept in order |
| `Upload.SanitizeFixpoint` | auth-server/src/middlewares/upload.middleware.ts:18 | a name is unchanged iff it is already safe, and sanitising is idempotent |
| `Upload.StoredFilename` | auth-server/src/middlewares/upload.middleware.ts:18-20 | the stored name ends with the sanitised original name, and it is all safe characters whenever the unique prefix is |
| `Upload.StoredNameIsSegment` | auth-server/src/middlewares/upload.middleware.ts:18-20 | the stored filename is safe, has no `/` or `\`, and ends with the sanitised name after `unique-` |
| `Upload.FileFilter` | auth-server/src/middlewares/upload.middleware.ts:24-37 | accepts iff the type is one of the three allowed strings, otherwise errors with "Unsupported file type" |
| `Upload.FileSizeLimit` | auth-server/src/middlewares/upload.middleware.ts:39-40 | the limit is a non-zero whole number of MiB: 50 MiB when the variable is unset, and otherwise the number the variable parses to |
| `Upload.FileSizeLimitDefault` | auth-server/src/middlewares/upload.middleware.ts:39-40 | 50 MiB by default and for 0; otherwise the variable's value in MiB |
| `Upload.UploadIntake` | auth-server/src/middlewares/upload.middleware.ts:18-40 | a file is stored iff its type is allowed and its size is within the limit, under the unique sanitised name |
| `Upload.IntakeFailuresAre500` | auth-server/src/middlewares/upload.middleware.ts:33 | a rejected type or size reaches the error handler as a plain error and is answered 500 |
| `Documents.MaxTextChars` | auth-server/src/controllers/document.controller.ts:53 | the cap is never 0; it is 1,000,000 when the variable is unset, and any other value is the variable's parsed number |
| `Documents.MaxTextCharsDefault` | auth-server/src/controllers/document.controller.ts:53 | the cap is 1,000,000 when the variable is absent, unparseable or zero, else its value |
| `Documents.SliceTo` | auth-server/src/controllers/document.controller.ts:77 | `slice(0, end)` gives a prefix, of length `min(end, len)` for non-negative `end` |
| `Documents.BasenameOfChild` | auth-server/src/controllers/document.controller.ts:89 | the basename of `dir/name` is `name` |
| `Documents.UploadDocument` | auth-server/src/controllers/document.controller.ts:55-111 | no file gives 400 with nothing stored; an extraction error (with its message, or the generic one when empty) or blank capped text gives 422 and unlinks the file; non-blank capped text gives 401 "Unauthorized" exactly when the caller is missing or 0, and 201 otherwise; 201 appends exactly one document, owned by the caller, holding the capped extraction, the file's name, type and size, at "/uploads/" + basename |
| `Documents.UploadStoresNormalizedText` | auth-server/src/controllers/document.controller.ts:70-100 | every stored text is in canonical whitespace form, and uploads keep it so |
| `Documents.DocxRoundTrip` | auth-server/src/controllers/document.controller.ts:69-105 | a Word file with non-blank text within the cap is stored with exactly its normalised text |
| `Documents.ShortPdfRefused` | auth-server/src/controllers/document.controller.ts:69-76 | a PDF with at most 1000 trimmed characters is refused with 422 and the no-extractable-text message |
| `Documents.RecordedPathIsStoredName` | auth-server/src/controllers/document.controller.ts:89-98 | the recorded path is "/uploads/" followed by the filename the intake chose |
| `Documents.Context` | auth-server/src/controllers/document.controller.ts:153-157 | the context never exceeds 90,000 words; under the cap it is the trimmed text unchanged; over it, its words are the first 90,000 words of the text |
| `Documents.ContextSingleSpaced` | auth-server/src/controllers/document.controller.ts:155-156 | over the cap the context is non-empty, has non-space ends, and every space in it is one plain ' ' between non-space characters |
| `Documents.Prompt` | auth-server/src/controllers/document.controller.ts:173-179 | one fixed system message, then the user message "Context:\n" + context + "\n\nQuestion: " + question |
| `Documents.AskApiKey` | auth-server/src/controllers/document.controller.ts:149-150 | a key is found iff `GROQ_API_KEY` or `GROQ_API_TOKEN` is non-empty; `GROQ_API_KEY` wins when both are; the key is never empty |
| `Documents.FindDocument` | auth-server/src/controllers/document.controller.ts:143-147 | a document is found iff `parseInt` of the id names an existing row |
| `Documents.AskQuestion` | auth-server/src/controllers/document.controller.ts:141-215 | 400 without a question, then 404 for an unknown document, then 500 without a key; otherwise the upstream decides: a non-ok reply gives 502 with its body, an ok reply gives 200 with the first choice's content or "", and a thrown error goes to `next` |
| `Documents.AskChecksBeforeUpstream` | auth-server/src/controllers/document.controller.ts:145-150 | when a precondition fails, the answer is 400, 404 or 500 and does not depend on the upstream |
| `Documents.CallGroqApi` | auth-server/src/controllers/document.controller.ts:14-51 | no key is an error; with a key, a non-ok reply, a thrown error and a reply without `choices` are errors, and a reply with `choices` returns the first choice's content or "" |
| `Documents.AskGroqQuestion` | auth-server/src/controllers/document.controller.ts:124-139 | a missing, non-array or empty `messages` gives 400; otherwise a successful upstream call is relayed with 200 and a failed one passes its error to `next` |
| `Documents.AskGroqRelaysAnswer` | auth-server/src/controllers/document.controller.ts:124-139 | for a non-empty message list, `askGroqQuestion` answers iff a key is set and the endpoint's reply has `choices`, and then relays its first content with 200 |
| `Users.FindByEmail` | auth-server/src/controllers/user.controller.ts:36 | finds a user with that email, or none exists |
| `Users.SetRefreshToken` | auth-server/src/controllers/user.controller.ts:44 | only the named user's token changes, and nothing changes without such a user |
| `Users.Signup` | auth-server/src/controllers/user.controller.ts:30-50 | missing fields give 400, a taken email 409, an invalid email a validation error, all with the table unchanged; a fresh valid email gives 201 exactly when the refresh secret is usable, appending one user whose stored token is the returned one, and otherwise the missing-secret error with the user already created; emails stay unique |
| `Users.Login` | auth-server/src/controllers/user.controller.ts:52-74 | missing fields give 400; every other refusal is 401 "Invalid credentials" or the missing-secret error, with the table unchanged; an unknown email, an empty stored hash or a wrong password gives 401; a matching password gives 200 exactly when the refresh secret is usable; 200 stores the returned token |
| `Users.LoginFailuresAlike` | auth-server/src/controllers/user.controller.ts:59-65 | an unknown email and a wrong password get the same 401 "Invalid credentials" |
| `Users.Refresh` | auth-server/src/controllers/user.controller.ts:76-103 | no token gives 400, an unusable secret the missing-secret error, a throwing verify its JWT error, a string payload 401; a verified `sub` naming a user whose stored token equals the presented one gives 200, and every other `sub` gives 401; success rotates the stored token to the new one |
| `Users.Logout` | auth-server/src/controllers/user.controller.ts:105-120 | no token gives 400; otherwise 200, and a truthy decoded `sub` clears that user's token; nothing else changes |
| `Users.LoginThenRefresh` | auth-server/src/controllers/user.controller.ts:66-97 | the refresh token a login returns refreshes successfully |
| `Users.SignupThenLogin` | auth-server/src/controllers/user.controller.ts:40-70 | a signed-up user logs in with the same password |
| `Users.RefreshRotates` | auth-server/src/controllers/user.controller.ts:91-97 | after a successful refresh, presenting the old token again is refused |
| `Users.LogoutRevokes` | auth-server/src/controllers/user.controller.ts:111-113 | after logout, no token for that user refreshes |
| `Conversations.OwnedConversation` | auth-server/src/controllers/conversation.controller.ts:22-24 | a conversation is reachable iff `parseInt` of the id names one that the caller owns |
| `Conversations.OwnedIds` | auth-server/src/controllers/conversation.controller.ts:12 | exactly the caller's conversations, each once |
| `Conversations.Listing` | auth-server/src/controllers/conversation.controller.ts:12-13 | each of the caller's conversations once, with its title and stamp, by `updatedAt` descending |
| `Conversations.Thread` | auth-server/src/controllers/conversation.controller.ts:25 | each message of the conversation once, as stored, by `createdAt` ascending |
| `Conversations.ListConversations` | auth-server/src/controllers/conversation.controller.ts:8-17 | 401 iff no caller; otherwise the caller's listing; the store is unchanged |
| `Conversations.GetConversation` | auth-server/src/controllers/conversation.controller.ts:19-31 | 404 iff missing or foreign; otherwise title, ordered thread and exactly the linked document ids |
| `Conversations.CreateConversation` | auth-server/src/controllers/conversation.controller.ts:33-45 | 401 without a caller; otherwise a new conversation titled "New chat" unless a title is given, plus exactly one assistant greeting |
| `Conversations.CreateThenGet` | auth-server/src/controllers/conversation.controller.ts:37-41 | a new conversation reads back with its title, the greeting as its only message, and no documents |
| `Conversations.DeleteConversation` | auth-server/src/controllers/conversation.controller.ts:47-60 | 404 and no change if missing or foreign; otherwise 204, and exactly that conversation, its messages and its links are removed |
| `Conversations.DeleteThenGet` | auth-server/src/controllers/conversation.controller.ts:51-55 | a deleted conversation then reads as 404 |
| `Conversations.AddMessage` | auth-server/src/controllers/conversation.controller.ts:62-76 | 404 and no change if missing or foreign; an empty role or content gives 400; a role outside "user"/"assistant" is refused with the column's error and no change; otherwise 201 with the next message id, exactly one message appended, the message counter advanced by one, and `updatedAt` bumped |
| `Conversations.AddMessageThenGet` | auth-server/src/controllers/conversation.controller.ts:70-71 | an added message appears in the conversation's thread |
| `Conversations.LinkedDocuments` | auth-server/src/controllers/conversation.controller.ts:26 | the document ids of a conversation are exactly those linked to it |
| `Conversations.DocumentOwners` | auth-server/src/controllers/conversation.controller.ts:87-88 | the owner column has exactly the ids of existing documents, each mapped to that document's `userId` |
| `Conversations.ForeignDocumentOfTable` | auth-server/src/controllers/conversation.controller.ts:87-89 | with that owner column, a link request is forbidden iff it lists an existing document of another user |
| `Conversations.LinkDocuments` | auth-server/src/controllers/conversation.controller.ts:78-98 | 404 if missing or foreign; 400 for a non-array; 403 with no change if a listed existing document is foreign; otherwise 200, and links become old ∪ listed ids |
| `Conversations.LinkIdempotent` | auth-server/src/controllers/conversation.controller.ts:91-93 | repeating a link request leaves the store as after the first |
| `Conversations.ForbiddenLinksNothing` | auth-server/src/controllers/conversation.controller.ts:87-89 | a 403 adds no link, even for documents the caller owns |
| `Ordering.SortBy` | auth-server/src/controllers/conversation.controller.ts:12 | the result is a permutation of the ids, ordered by the key column |

## Left out

- The React client: it is UI rendering and browser storage.
- `getDocument` and `profile`: plain lookups that are not part of this core.
- File I/O:
  - The reading of files is left out: the bytes, and the results of pdf-parse
    and mammoth, are inputs.
  - Unlinking is the `unlinked` flag of `Documents.UploadResult`.
  - Multer's disk storage is left out.
- Library behaviour is left to parameters:
  - jwt sign, verify and decode, and bcrypt, are parameters: their
    cryptography is not modelled.
  - The refresh-rotation lemma therefore assumes that the new token differs
    from the old one.
- The Groq HTTP calls:
  - Network timing and transport failures are left out, apart from the thrown
    error handed to `next`.
  - `callGroqAPI` requests `stream: true` but reads one JSON reply. The model
    takes the reply as given.
- Logging, memory reports and console dumps.
- Sequelize schemas, migrations, route wiring and `index.ts`.
  - The model keeps what the controllers depend on: auto-increment ids, the
    unique email index, the ENUM role column, and the link table without a
    foreign key.
  - Column lengths (`STRING(255)`) and unsigned-integer checks are not
    modelled.
- JavaScript values the model does not represent:
  - JavaScript strings count UTF-16 code units. Dafny strings here are
    sequences of Unicode scalars, so lengths differ for characters outside the
    Basic Multilingual Plane.
  - `parseInt` results beyond double precision, and fractional or non-finite
    numeric `sub` claims, are not modelled.
- Stacks of thrown errors: the `stack` part of the development-mode error
  body is an input, and the model's own errors carry none.
- Users.Logout: a string `sub` is read with `parseInt`. The database's own
  coercion of a non-numeric string in `WHERE id = …` is not modelled.
- Conversations.AddMessage: the error for a role outside the ENUM column is
  a parameter, since which error the database raises depends on the SQL
  dialect.
- Conversations.AddMessage: the `attachments` value is taken already
  serialised as JSON. `JSON.stringify` and `JSON.parse` are not modelled.
- Conversations.ListConversations: when several rows share the same
  timestamp, the database's order among them is not fixed. The model promises
  only the order by the timestamp.
- Conversations.GetConversation: the same applies to messages that share a
  `createdAt`. The document ids are returned as a set, because the query has
  no order.
- Conversations.OwnedConversation: an id parameter that `parseInt` reads as
  NaN is treated as "not found", giving 404. The code passes NaN to
  `findByPk`, and what the database does with it depends on the Sequelize
  dialect; it may raise an error that the error handler answers with 500.
  This affects `GetConversation`, `DeleteConversation`, `AddMessage` and
  `LinkDocuments`.
- Documents.FindDocument: the same NaN id is treated as "not found" by
  `AskQuestion`, which then answers 404 where the database may raise an
  error instead.
- Conversations.AddMessage: the model bumps the conversation's `updatedAt`
  to the request time, as `convo.update({ updatedAt: new Date() })` asks.
  Sequelize manages that column itself and may ignore the explicit value;
  the model does not decide that library question.
- Users.FindByEmail: emails are matched by exact string equality. The
  database compares them under the column's collation, and MySQL's default
  collations ignore letter case. There, `Signup` with `Bob@x.io` after
  `bob@x.io` is refused with 409 and `Login` matches either spelling, while
  the model creates a second user and refuses the other spelling with 401.
- Request bodies are assumed to hold the types their TypeScript annotations
  declare: `email` and `password` strings in `Users.Signup` and
  `Users.Login`, and an array of numeric ids in
  `Conversations.LinkDocuments`. A non-string truthy password makes bcrypt
  throw, which the handler passes on as a 500. These paths are not modelled.
- Conversations.LinkDocuments: the links are added as one union. The code
  adds them one `findOrCreate` at a time. An element of the wrong JSON type
  (`null`, a string, an object) can pass the ownership query and then fail
  part way through the loop. That leaves an error response with the earlier
  links already stored, and the model cannot express this partial update.
- A missing `ACCESS_TOKEN_SECRET` fails when the module loads. This is
  outside any request and is not modelled.

=== FILE: auth.dfy ===
/** The `requireAuth` middleware: parse `Authorization: Bearer <token>`, verify
    the token and accept a usable `sub` claim.  `jwt.verify` is an oracle. */
module Auth {
  import opened Options
  import opened JsText
  import opened JsNumber
  import opened Errors

  /** The `sub` claim of a token's payload: absent or null, a number, or a
      string. */
  datatype Sub = NoSub | NumSub(n: int) | StrSub(s: string)

  /** What `jwt.verify(token, secret)` does: throw, return a string payload,
      or return an object payload. */
  datatype Verified = VerifyThrew(message: string) | StringPayload | Claims(sub: Sub)

  const BearerPrefix: string := "Bearer "

  /** The token of an `Authorization` header: what follows `"Bearer "`
      (case-sensitive, one space), or nothing when the header is missing or
      does not start with it. */
  function BearerToken(header: Option<string>): (token: Option<string>)
    ensures token.Some? <==> header.Some? && StartsWith(header.value, BearerPrefix)
    ensures token.Some? ==> header.value == BearerPrefix + token.value
  {
    if header.Some? && StartsWith(header.value, BearerPrefix)
    then
      assert header.value == header.value[..|BearerPrefix|] + header.value[|BearerPrefix|..];
      Some(header.value[|BearerPrefix|..])
    else None
  }

  /** Every token comes back out of the header built from it. */
  lemma BearerRoundTrip(token: string)
    ensures BearerToken(Some(BearerPrefix + token)) == Some(token)
  {
    assert (BearerPrefix + token)[..|BearerPrefix|] == BearerPrefix;
    assert (BearerPrefix + token)[|BearerPrefix|..] == token;
  }

  /** `getEnv`: a missing or empty variable makes it throw. */
  predicate SecretUsable(secret: Option<string>) {
    secret.Some? && secret.value != ""
  }

  /** The user id a `sub` claim names: a number as is, a string through
      `parseInt`; None for a null claim and for NaN. */
  function SubjectId(sub: Sub): (id: Option<int>)
    ensures sub.NoSub? ==> id.None?
    ensures sub.StrSub? ==> id == ParseInt(sub.s)
    ensures sub.NumSub? ==> id == Some(sub.n)
  {
    match sub
    case NoSub => None
    case NumSub(n) => Some(n)
    case StrSub(s) => ParseInt(s)
  }

  datatype AuthResult = Authenticated(sub: int) | Denied(error: JsError)

  const Unauthorized: JsError := ApiError(401, "Unauthorized", None)

  /** `requireAuth`.  Every failure, thrown or not, is the same 401. */
  function RequireAuth(header: Option<string>, secret: Option<string>,
                       verify: (string, string) -> Verified): (r: AuthResult)
    ensures r.Denied? ==> r.error == Unauthorized
    ensures BearerToken(header).None? || !SecretUsable(secret) ==> r.Denied?
    ensures r.Authenticated? ==>
              && BearerToken(header).Some?
              && SecretUsable(secret)
              && verify(BearerToken(header).value, secret.value).Claims?
              && SubjectId(verify(BearerToken(header).value, secret.value).sub) == Some(r.sub)
  {
    var token := BearerToken(header);
    if token.None? || !SecretUsable(secret) then Denied(Unauthorized)
    else
      match verify(token.value, secret.value)
      case VerifyThrew(_) => Denied(Unauthorized)
      case StringPayload => Denied(Unauthorized)
      case Claims(sub) =>
        var id := SubjectId(sub);
        if id.None? then Denied(Unauthorized) else Authenticated(id.value)
  }

  /** A header carrying a token that verifies to a usable subject
      authenticates as that subject. */
  lemma AcceptsVerifiedBearer(token: string, secret: string, verify: (string, string) -> Verified, id: int)
    requires secret != ""
    requires verify(token, secret).Claims? && SubjectId(verify(token, secret).sub) == Some(id)
    ensures RequireAuth(Some(BearerPrefix + token), Some(secret), verify) == Authenticated(id)
  {
    BearerRoundTrip(token);
  }

  /** The scheme is matched case-sensitively: a lower-case `bearer` header is
      refused whatever the token. */
  lemma LowerCaseSchemeRefused(token: string, secret: Option<string>, verify: (string, string) -> Verified)
    ensures RequireAuth(Some("bearer " + token), secret, verify) == Denied(Unauthorized)
  {
    assert ("bearer " + token)[0] == 'b';
  }
}

=== FILE: conversations.dfy ===
/** The conversation controller over an abstract store: conversations and
    messages keyed by auto-increment id, the conversation/document link table
    as a set of pairs, and the documents table read only for ownership.
    Every handler runs behind `requireAuth`, so the caller is the
    authenticated `sub`; `now` is the clock reading the store stamps rows
    with. */
module Conversations {
  import opened Options
  import opened Errors
  import opened JsNumber
  import opened Ordering
  import Documents

  datatype Conversation = Conversation(userId: int, title: string, updatedAt: int)

  /** `attachments` is the stored `attachmentsJson`. */
  datatype Message = Message(conversationId: nat, role: string, content: string,
                             attachments: Option<string>, createdAt: int)

  datatype Store = Store(convos: map<nat, Conversation>, messages: map<nat, Message>,
                         links: set<(nat, nat)>, documentOwner: map<nat, int>,
                         nextConvo: nat, nextMessage: nat)

  /** Ids below the auto-increment counters, and no message or link that
      outlives its conversation. */
  predicate Valid(s: Store) {
    && (forall c :: c in s.convos ==> c < s.nextConvo)
    && (forall m :: m in s.messages ==> m < s.nextMessage)
    && (forall m :: m in s.messages ==> s.messages[m].conversationId in s.convos)
    && (forall l :: l in s.links ==> l.0 in s.convos)
  }

  datatype Summary = Summary(id: nat, title: string, updatedAt: int)
  datatype MessageView = MessageView(id: nat, role: string, content: string, attachments: Option<string>)

  datatype ConvoBody = ConvoMessage(message: string)
                     | ConvoList(conversations: seq<Summary>)
                     | ConvoDetail(id: nat, title: string, messages: seq<MessageView>, documentIds: set<nat>)
                     | ConvoCreated(id: nat, title: string)
                     | MessageCreated(messageId: nat)
                     | LinkedOk
                     | NoContent

  datatype ConvoResult = ConvoResult(outcome: Outcome<ConvoBody>, store: Store)

  const UnauthorizedReply: Outcome<ConvoBody> := Reply(401, ConvoMessage("Unauthorized"))
  const NotFoundReply: Outcome<ConvoBody> := Reply(404, ConvoMessage("Not found"))
  const DefaultTitle := "New chat"
  const Greeting := "Hi! How can I help you today?"

  /** `Conversation.findByPk(parseInt(id, 10))` followed by the ownership
      test: the conversation the caller may act on, if any. */
  function OwnedConversation(s: Store, caller: int, idParam: string): (id: Option<nat>)
    ensures id.Some? ==> ParseInt(idParam) == Some(id.value as int)
                         && id.value in s.convos && s.convos[id.value].userId == caller
    ensures id.None? ==> ParseInt(idParam).None? || ParseInt(idParam).value < 0
                         || ParseInt(idParam).value !in s.convos
                         || s.convos[ParseInt(idParam).value].userId != caller
  {
    var n := ParseInt(idParam);
    if n.None? || n.value < 0 then None
    else if n.value in s.convos && s.convos[n.value].userId == caller then Some(n.value)
    else None
  }

  /** The caller's conversations in increasing id order. */
  function OwnedIds(s: Store, caller: int): (ids: seq<nat>)
    ensures forall k :: 0 <= k < |ids| ==> ids[k] in s.convos && s.convos[ids[k]].userId == caller
    ensures forall i, j :: 0 <= i < j < |ids| ==> ids[i] < ids[j]
    ensures Valid(s) ==> forall c :: c in s.convos && s.convos[c].userId == caller ==> c in ids
  {
    IdsWhere(c => c in s.convos && s.convos[c].userId == caller, 0, s.nextConvo)
  }

  /** The messages of conversation `id`, in increasing id order. */
  function MessageIds(s: Store, id: nat): (ids: seq<nat>)
    ensures forall k :: 0 <= k < |ids| ==> ids[k] in s.messages && s.messages[ids[k]].conversationId == id
    ensures forall i, j :: 0 <= i < j < |ids| ==> ids[i] < ids[j]
    ensures Valid(s) ==> forall m :: m in s.messages && s.messages[m].conversationId == id ==> m in ids
  {
    IdsWhere(m => m in s.messages && s.messages[m].conversationId == id, 0, s.nextMessage)
  }

  /** `ORDER BY updatedAt DESC` is an ascending sort on the negated stamp. */
  function RecentFirst(s: Store): (key: map<nat, int>)
    ensures forall c :: c in key <==> c in s.convos
  {
    map c | c in s.convos :: -s.convos[c].updatedAt
  }

  function OldestFirst(s: Store): (key: map<nat, int>)
    ensures forall m :: m in key <==> m in s.messages
  {
    map m | m in s.messages :: s.messages[m].createdAt
  }

  function SummaryIds(list: seq<Summary>): seq<nat> {
    seq(|list|, k requires 0 <= k < |list| => list[k].id)
  }

  function MessageViewIds(list: seq<MessageView>): seq<nat> {
    seq(|list|, k requires 0 <= k < |list| => list[k].id)
  }

  /** The listing the caller gets: each of their conversations once, with
      its stored title and stamp, most recently updated first. */
  predicate IsListing(s: Store, caller: int, list: seq<Summary>) {
    && multiset(SummaryIds(list)) == multiset(OwnedIds(s, caller))
    && (forall k :: 0 <= k < |list| ==>
          && list[k].id in s.convos
          && s.convos[list[k].id].userId == caller
          && list[k].title == s.convos[list[k].id].title
          && list[k].updatedAt == s.convos[list[k].id].updatedAt)
    && (forall i, j :: 0 <= i < j < |list| ==> list[i].updatedAt >= list[j].updatedAt)
  }

  /** The thread of conversation `id`: each of its messages once, as
      stored, oldest first. */
  predicate IsThread(s: Store, id: nat, list: seq<MessageView>) {
    && multiset(MessageViewIds(list)) == multiset(MessageIds(s, id))
    && (forall k :: 0 <= k < |list| ==>
          && list[k].id in s.messages
          && s.messages[list[k].id].conversationId == id
          && list[k].role == s.messages[list[k].id].role
          && list[k].content == s.messages[list[k].id].content
          && list[k].attachments == s.messages[list[k].id].attachments)
    && (forall i, j :: 0 <= i < j < |list| ==>
          s.messages[list[i].id].createdAt <= s.messages[list[j].id].createdAt)
  }

  function Summaries(s: Store, ids: seq<nat>): (list: seq<Summary>)
    requires forall k :: 0 <= k < |ids| ==> ids[k] in s.convos
    ensures SummaryIds(list) == ids
    ensures forall k :: 0 <= k < |list| ==>
              list[k] == Summary(ids[k], s.convos[ids[k]].title, s.convos[ids[k]].updatedAt)
  {
    var list := seq(|ids|, k requires 0 <= k < |ids| => Summary(ids[k], s.convos[ids[k]].title, s.convos[ids[k]].updatedAt));
    assert SummaryIds(list) == ids;
    list
  }

  function Views(s: Store, ids: seq<nat>): (list: seq<MessageView>)
    requires forall k :: 0 <= k < |ids| ==> ids[k] in s.messages
    ensures MessageViewIds(list) == ids
    ensures forall k :: 0 <= k < |list| ==>
              list[k] == MessageView(ids[k], s.messages[ids[k]].role, s.messages[ids[k]].content, s.messages[ids[k]].attachments)
  {
    var list := seq(|ids|, k requires 0 <= k < |ids| =>
                  MessageView(ids[k], s.messages[ids[k]].role, s.messages[ids[k]].content, s.messages[ids[k]].attachments));
    assert MessageViewIds(list) == ids;
    list
  }

  /** A sorted copy of the caller's ids keeps only the caller's ids. */
  lemma SortedOwned(s: Store, caller: int, ids: seq<nat>)
    requires multiset(ids) == multiset(OwnedIds(s, caller))
    ensures forall k :: 0 <= k < |ids| ==> ids[k] in s.convos && s.convos[ids[k]].userId == caller
  {
    var owned := OwnedIds(s, caller);
    PermutationKeepsMembers(ids, owned);
    forall k | 0 <= k < |ids| ensures ids[k] in s.convos && s.convos[ids[k]].userId == caller {
      assert ids[k] in owned;
      var j :| 0 <= j < |owned| && owned[j] == ids[k];
    }
  }

  lemma SortedThread(s: Store, id: nat, ids: seq<nat>)
    requires multiset(ids) == multiset(MessageIds(s, id))
    ensures forall k :: 0 <= k < |ids| ==> ids[k] in s.messages && s.messages[ids[k]].conversationId == id
  {
    var found := MessageIds(s, id);
    PermutationKeepsMembers(ids, found);
    forall k | 0 <= k < |ids| ensures ids[k] in s.messages && s.messages[ids[k]].conversationId == id {
      assert ids[k] in found;
      var j :| 0 <= j < |found| && found[j] == ids[k];
    }
  }

  function Listing(s: Store, caller: int): (list: seq<Summary>)
    ensures IsListing(s, caller, list)
  {
    var key := RecentFirst(s);
    var ids := SortBy(key, OwnedIds(s, caller));
    SortedOwned(s, caller, ids);
    var list := Summaries(s, ids);
    assert forall i, j :: 0 <= i < j < |list| ==> list[i].updatedAt >= list[j].updatedAt by {
      forall i, j | 0 <= i < j < |list| ensures list[i].updatedAt >= list[j].updatedAt {
        assert key[ids[i]] <= key[ids[j]];
      }
    }
    list
  }

  function Thread(s: Store, id: nat): (list: seq<MessageView>)
    ensures IsThread(s, id, list)
  {
    var key := OldestFirst(s);
    var ids := SortBy(key, MessageIds(s, id));
    SortedThread(s, id, ids);
    var list := Views(s, ids);
    assert forall i, j :: 0 <= i < j < |list| ==>
             s.messages[list[i].id].createdAt <= s.messages[list[j].id].createdAt by {
      forall i, j | 0 <= i < j < |list|
        ensures s.messages[list[i].id].createdAt <= s.messages[list[j].id].createdAt
      {
        assert key[ids[i]] <= key[ids[j]];
      }
    }
    list
  }

  /** `listConversations`. */
  function ListConversations(s: Store, caller: int): (r: ConvoResult)
    ensures r.store == s
    ensures caller == 0 <==> r.outcome == UnauthorizedReply
    ensures caller != 0 ==> r.outcome.Reply? && r.outcome.status == 200 && r.outcome.body.ConvoList?
                            && IsListing(s, caller, r.outcome.body.conversations)
  {
    if caller == 0 then ConvoResult(UnauthorizedReply, s)
    else ConvoResult(Reply(200, ConvoList(Listing(s, caller))), s)
  }

  /** The document ids linked to conversation `id`. */
  function LinkedDocuments(s: Store, id: nat): (docs: set<nat>)
    ensures forall d :: d in docs <==> (id, d) in s.links
  {
    set l | l in s.links && l.0 == id :: l.1
  }

  /** `getConversation`. */
  function GetConversation(s: Store, caller: int, idParam: string): (r: ConvoResult)
    ensures r.store == s
    ensures OwnedConversation(s, caller, idParam).None? <==> r.outcome == NotFoundReply
    ensures OwnedConversation(s, caller, idParam).Some? ==>
              var id := OwnedConversation(s, caller, idParam).value;
              && r.outcome.Reply? && r.outcome.status == 200 && r.outcome.body.ConvoDetail?
              && r.outcome.body.id == id
              && r.outcome.body.title == s.convos[id].title
              && (forall d :: d in r.outcome.body.documentIds <==> (id, d) in s.links)
              && IsThread(s, id, r.outcome.body.messages)
  {
    var owned := OwnedConversation(s, caller, idParam);
    if owned.None? then ConvoResult(NotFoundReply, s)
    else
      var id := owned.value;
      ConvoResult(Reply(200, ConvoDetail(id, s.convos[id].title, Thread(s, id), LinkedDocuments(s, id))), s)
  }

  /** `createConversation`: a missing or empty title becomes "New chat", and
      the new conversation is seeded with the assistant's greeting. */
  function CreateConversation(s: Store, caller: int, title: Option<string>, now: int): (r: ConvoResult)
    ensures caller == 0 <==> r == ConvoResult(UnauthorizedReply, s)
    ensures caller != 0 ==>
              && var id := s.nextConvo;
                 var chosen := if title.Some? && title.value != "" then title.value else DefaultTitle;
                 && r.outcome == Reply(201, ConvoCreated(id, chosen))
                 && r.store.convos == s.convos[id := Conversation(caller, chosen, now)]
                 && r.store.messages == s.messages[s.nextMessage := Message(id, "assistant", Greeting, None, now)]
                 && r.store.links == s.links && r.store.documentOwner == s.documentOwner
    ensures Valid(s) ==> Valid(r.store)
  {
    if caller == 0 then ConvoResult(UnauthorizedReply, s)
    else
      var id := s.nextConvo;
      var chosen := if title.Some? && title.value != "" then title.value else DefaultTitle;
      var greeting := Message(id, "assistant", Greeting, None, now);
      var s' := s.(convos := s.convos[id := Conversation(caller, chosen, now)],
                   messages := s.messages[s.nextMessage := greeting],
                   nextConvo := id + 1, nextMessage := s.nextMessage + 1);
      ConvoResult(Reply(201, ConvoCreated(id, chosen)), s')
  }

  /** The only message of a new conversation is its greeting. */
  lemma CreatedThreadIds(s: Store, caller: int, title: Option<string>, now: int)
    requires Valid(s) && caller != 0
    ensures MessageIds(CreateConversation(s, caller, title, now).store, s.nextConvo) == [s.nextMessage]
  {
    var after := CreateConversation(s, caller, title, now).store;
    assert forall m :: m in s.messages ==> s.messages[m].conversationId != s.nextConvo;
    IdsWhereSingle(m => m in after.messages && after.messages[m].conversationId == s.nextConvo,
                   0, after.nextMessage, s.nextMessage);
  }

  /** A thread over a single message id is that message alone. */
  lemma SingletonThread(s: Store, id: nat, list: seq<MessageView>, m: nat)
    requires IsThread(s, id, list) && MessageIds(s, id) == [m]
    ensures list == [MessageView(m, s.messages[m].role, s.messages[m].content, s.messages[m].attachments)]
  {
    var ids := MessageViewIds(list);
    assert multiset(ids) == multiset{m};
    assert |ids| == |multiset{m}| == 1;
    assert ids[0] in multiset{m};
  }

  /** A new conversation reads back with its title, the greeting as its only
      message, and no documents. */
  lemma CreateThenGet(s: Store, caller: int, title: Option<string>, now: int)
    requires Valid(s) && caller != 0
    ensures var r := CreateConversation(s, caller, title, now);
            var got := GetConversation(r.store, caller, Decimal(s.nextConvo)).outcome;
            && got.Reply? && got.body.ConvoDetail?
            && got.body.messages == [MessageView(s.nextMessage, "assistant", Greeting, None)]
            && got.body.documentIds == {}
            && got.body.title == r.outcome.body.title
  {
    var r := CreateConversation(s, caller, title, now);
    var id := s.nextConvo;
    ParseIntDecimal(id, "");
    assert Decimal(id) + "" == Decimal(id);
    assert OwnedConversation(r.store, caller, Decimal(id)) == Some(id);
    CreatedThreadIds(s, caller, title, now);
    var got := GetConversation(r.store, caller, Decimal(id)).outcome;
    SingletonThread(r.store, id, got.body.messages, s.nextMessage);
    forall l | l in r.store.links ensures l.0 != id {
      assert l.0 in s.convos;
    }
  }

  /** `deleteConversation`: the conversation, its messages and its links go,
      and nothing else changes. */
  function DeleteConversation(s: Store, caller: int, idParam: string): (r: ConvoResult)
    ensures OwnedConversation(s, caller, idParam).None? <==> r == ConvoResult(NotFoundReply, s)
    ensures OwnedConversation(s, caller, idParam).Some? ==>
              && var id := OwnedConversation(s, caller, idParam).value;
                 && r.outcome == Reply(204, NoContent)
                 && r.store.convos == s.convos - {id}
                 && (forall m :: m in r.store.messages <==> m in s.messages && s.messages[m].conversationId != id)
                 && (forall m :: m in r.store.messages ==> r.store.messages[m] == s.messages[m])
                 && (forall l :: l in r.store.links <==> l in s.links && l.0 != id)
                 && r.store.documentOwner == s.documentOwner
                 && r.store.nextConvo == s.nextConvo && r.store.nextMessage == s.nextMessage
    ensures Valid(s) ==> Valid(r.store)
  {
    var owned := OwnedConversation(s, caller, idParam);
    if owned.None? then ConvoResult(NotFoundReply, s)
    else
      var id := owned.value;
      var messages := map m | m in s.messages && s.messages[m].conversationId != id :: s.messages[m];
      var links := set l | l in s.links && l.0 != id;
      ConvoResult(Reply(204, NoContent), s.(convos := s.convos - {id}, messages := messages, links := links))
  }

  /** A deleted conversation is gone: reading it again is a 404. */
  lemma DeleteThenGet(s: Store, caller: int, idParam: string)
    requires OwnedConversation(s, caller, idParam).Some?
    ensures var after := DeleteConversation(s, caller, idParam).store;
            GetConversation(after, caller, idParam).outcome == NotFoundReply
  {
  }

  /** `addMessage`.  A role outside the `ENUM('user', 'assistant')` column is
      refused when the row is written; `enumRefusal` is the error the
      database raises then. */
  function AddMessage(s: Store, caller: int, idParam: string, role: Option<string>, content: Option<string>,
                      attachments: Option<string>, enumRefusal: JsError, now: int): (r: ConvoResult)
    ensures OwnedConversation(s, caller, idParam).None? ==> r == ConvoResult(NotFoundReply, s)
    ensures r.outcome.Reply? && r.outcome.status == 400 ==> r.outcome.body == ConvoMessage("role and content are required")
    ensures OwnedConversation(s, caller, idParam).Some? && (role.None? || role.value == "" || content.None? || content.value == "")
            ==> r == ConvoResult(Reply(400, ConvoMessage("role and content are required")), s)
    ensures r.outcome.Next? ==> r.store == s && r.outcome.error == enumRefusal
    ensures r.outcome.Reply? && r.outcome.status == 201 ==>
              && var id := OwnedConversation(s, caller, idParam).value;
                 && role.value in {"user", "assistant"} && content.value != ""
                 && r.outcome.body == MessageCreated(s.nextMessage)
                 && r.store.messages == s.messages[s.nextMessage := Message(id, role.value, content.value, attachments, now)]
                 && r.store.convos == s.convos[id := s.convos[id].(updatedAt := now)]
                 && r.store.links == s.links && r.store.documentOwner == s.documentOwner
                 && r.store.nextMessage == s.nextMessage + 1 && r.store.nextConvo == s.nextConvo
    ensures OwnedConversation(s, caller, idParam).Some? && role.Some? && role.value != "" && content.Some? && content.value != ""
            ==> && (role.value in {"user", "assistant"} <==> r.outcome == Reply(201, MessageCreated(s.nextMessage)))
                && (role.value !in {"user", "assistant"} ==> r == ConvoResult(Next(enumRefusal), s))
    ensures r.outcome.Reply? ==> r.outcome.status in {201, 400, 404}
    ensures Valid(s) ==> Valid(r.store)
  {
    var owned := OwnedConversation(s, caller, idParam);
    if owned.None? then ConvoResult(NotFoundReply, s)
    else if role.None? || role.value == "" || content.None? || content.value == "" then
      ConvoResult(Reply(400, ConvoMessage("role and content are required")), s)
    else if role.value !in {"user", "assistant"} then ConvoResult(Next(enumRefusal), s)
    else
      var id := owned.value;
      var msg := Message(id, role.value, content.value, attachments, now);
      var s' := s.(messages := s.messages[s.nextMessage := msg], nextMessage := s.nextMessage + 1,
                   convos := s.convos[id := s.convos[id].(updatedAt := now)]);
      ConvoResult(Reply(201, MessageCreated(s.nextMessage)), s')
  }

  /** An added message is read back with the conversation. */
  lemma AddMessageThenGet(s: Store, caller: int, idParam: string, role: string, content: string,
                          attachments: Option<string>, enumRefusal: JsError, now: int)
    requires Valid(s)
    requires AddMessage(s, caller, idParam, Some(role), Some(content), attachments, enumRefusal, now).outcome.Reply?
    requires AddMessage(s, caller, idParam, Some(role), Some(content), attachments, enumRefusal, now).outcome.status == 201
    ensures var after := AddMessage(s, caller, idParam, Some(role), Some(content), attachments, enumRefusal, now).store;
            var got := GetConversation(after, caller, idParam).outcome;
            && got.Reply? && got.body.ConvoDetail?
            && MessageView(s.nextMessage, role, content, attachments) in got.body.messages
  {
    var after := AddMessage(s, caller, idParam, Some(role), Some(content), attachments, enumRefusal, now).store;
    var id := OwnedConversation(s, caller, idParam).value;
    assert OwnedConversation(after, caller, idParam) == Some(id);
    var got := GetConversation(after, caller, idParam).outcome;
    assert Valid(after);
    assert s.nextMessage in MessageIds(after, id);
    var ids := MessageViewIds(got.body.messages);
    assert s.nextMessage in multiset(ids);
    var k :| 0 <= k < |ids| && ids[k] == s.nextMessage;
    assert got.body.messages[k] == MessageView(s.nextMessage, role, content, attachments);
  }

  /** The `documentIds` field of a link request. */
  datatype DocumentIdsField = NotAnArray | DocumentIds(ids: seq<nat>)

  /** The `userId` column of the document table, keyed by document id: the
      `documentOwner` view of a store whose documents are `docs`. */
  function DocumentOwners(docs: seq<Documents.Document>): (owner: map<nat, int>)
    ensures forall id: nat :: id in owner <==> 1 <= id <= |docs|
    ensures forall id: nat :: id in owner ==> owner[id] == docs[id - 1].userId
  {
    if |docs| == 0 then map[]
    else DocumentOwners(docs[..|docs| - 1])[|docs| := docs[|docs| - 1].userId]
  }

  /** Some listed document exists and belongs to someone else. */
  predicate ForeignDocument(s: Store, caller: int, ids: seq<nat>) {
    exists k :: 0 <= k < |ids| && ids[k] in s.documentOwner && s.documentOwner[ids[k]] != caller
  }

  /** Over a store whose owner column is the document table's, a request is
      forbidden exactly when it lists an existing document of another user,
      which is what `Document.findAll` followed by the `userId` test finds. */
  lemma ForeignDocumentOfTable(s: Store, docs: seq<Documents.Document>, caller: int, ids: seq<nat>)
    requires s.documentOwner == DocumentOwners(docs)
    ensures ForeignDocument(s, caller, ids)
            <==> exists k :: 0 <= k < |ids| && 1 <= ids[k] <= |docs| && docs[ids[k] - 1].userId != caller
  {
  }

  /** `linkDocuments`: the link set grows by the listed ids, which need not
      name existing documents. */
  function LinkDocuments(s: Store, caller: int, idParam: string, field: DocumentIdsField): (r: ConvoResult)
    ensures OwnedConversation(s, caller, idParam).None? ==> r == ConvoResult(NotFoundReply, s)
    ensures OwnedConversation(s, caller, idParam).Some? && field.NotAnArray?
            ==> r == ConvoResult(Reply(400, ConvoMessage("documentIds is required")), s)
    ensures OwnedConversation(s, caller, idParam).Some? && field.DocumentIds? && ForeignDocument(s, caller, field.ids)
            ==> r == ConvoResult(Reply(403, ConvoMessage("Forbidden")), s)
    ensures r.outcome == Reply(200, LinkedOk) ==>
              && var id := OwnedConversation(s, caller, idParam).value;
                 && field.DocumentIds? && !ForeignDocument(s, caller, field.ids)
                 && (forall l :: l in r.store.links <==> l in s.links || (l.0 == id && l.1 in field.ids))
                 && r.store == s.(links := r.store.links)
    ensures OwnedConversation(s, caller, idParam).Some? && field.DocumentIds? && !ForeignDocument(s, caller, field.ids)
            ==> r.outcome == Reply(200, LinkedOk)
    ensures r.outcome.Reply? && r.outcome.status in {200, 400, 403, 404}
    ensures Valid(s) ==> Valid(r.store)
  {
    var owned := OwnedConversation(s, caller, idParam);
    if owned.None? then ConvoResult(NotFoundReply, s)
    else if field.NotAnArray? then ConvoResult(Reply(400, ConvoMessage("documentIds is required")), s)
    else if ForeignDocument(s, caller, field.ids) then ConvoResult(Reply(403, ConvoMessage("Forbidden")), s)
    else
      var added := set d | d in field.ids :: (owned.value, d);
      ConvoResult(Reply(200, LinkedOk), s.(links := s.links + added))
  }

  /** Linking is idempotent: the same request twice leaves the store as once. */
  lemma LinkIdempotent(s: Store, caller: int, idParam: string, field: DocumentIdsField)
    ensures var once := LinkDocuments(s, caller, idParam, field);
            LinkDocuments(once.store, caller, idParam, field) == once
  {
    var once := LinkDocuments(s, caller, idParam, field);
    if once.outcome == Reply(200, LinkedOk) {
      var twice := LinkDocuments(once.store, caller, idParam, field);
      assert twice.store.links == once.store.links;
    }
  }

  /** A rejected link request adds nothing, even for the documents the caller
      does own. */
  lemma ForbiddenLinksNothing(s: Store, caller: int, idParam: string, ids: seq<nat>)
    requires OwnedConversation(s, caller, idParam).Some? && ForeignDocument(s, caller, ids)
    ensures LinkDocuments(s, caller, idParam, DocumentIds(ids)).store.links == s.links
  {
  }
}

=== FILE: documents.dfy ===
/** The document controller: `uploadDocument` turns a stored file into a
    Document row, `askQuestion` builds a prompt from a Document's text and
    forwards it to the chat-completion endpoint, and `askGroqQuestion` relays a
    message list.  The document table is a sequence; the row with id `k` is
    element `k - 1`, since ids are handed out by auto-increment and this core
    never deletes a document.  The endpoint is an oracle. */
module Documents {
  import opened Options
  import opened JsText
  import opened JsNumber
  import opened Errors
  import opened Extraction
  import Upload
  import Mime

  // ---------------------------------------------------------------------
  // uploadDocument
  // ---------------------------------------------------------------------

  datatype UploadedFile = UploadedFile(originalName: string, mimeType: string, size: nat, storagePath: string)

  datatype Document = Document(userId: int, originalFilename: string, mimeType: string, sizeBytes: nat,
                               storagePath: string, textContent: string)

  /** What the two parsers and the image scan see of one stored file. */
  datatype FileContents = FileContents(scan: Option<seq<byte>>, pdf: PdfParse, raw: RawText)

  datatype UploadBody = UploadMessage(message: string) | CreatedId(id: nat)

  /** The answer, the document table afterwards, and whether the stored file
      was unlinked. */
  datatype UploadResult = UploadResult(outcome: Outcome<UploadBody>, docs: seq<Document>, unlinked: bool)

  const DefaultMaxTextChars: int := 1_000_000

  /** `MAX_TEXT_CHARS`: `parseInt(env || '', 10) || 1_000_000`. */
  function MaxTextChars(env: Option<string>): (cap: int)
    ensures cap != 0
    ensures env.None? ==> cap == DefaultMaxTextChars
    ensures cap != DefaultMaxTextChars ==> env.Some? && ParseInt(env.value) == Some(cap)
  {
    EnvIntOr(env, DefaultMaxTextChars)
  }

  /** The cap is one million characters when the variable is absent,
      unparseable or zero, and the given number otherwise. */
  lemma MaxTextCharsDefault(env: Option<string>, n: nat)
    ensures env.None? || ParseInt(env.value).None? || ParseInt(env.value) == Some(0)
            ==> MaxTextChars(env) == 1_000_000
    ensures MaxTextChars(Some(Decimal(n))) == if n == 0 then 1_000_000 else n
  {
    EnvIntOrDecimal(n, DefaultMaxTextChars);
  }

  /** `s.slice(0, end)`: a negative `end` counts back from the end. */
  function SliceTo(s: string, end: int): (r: string)
    ensures |r| <= |s| && r == s[..|r|]
    ensures 0 <= end ==> |r| == if end < |s| then end else |s|
  {
    var e := if end < 0 then (if |s| + end < 0 then 0 else |s| + end) else (if end < |s| then end else |s|);
    s[..e]
  }

  function DropTrailingSlashes(p: string): string {
    if |p| > 0 && p[|p| - 1] == '/' then DropTrailingSlashes(p[..|p| - 1]) else p
  }

  function AfterLastSlash(p: string): string {
    if |p| == 0 || p[|p| - 1] == '/' then "" else AfterLastSlash(p[..|p| - 1]) + [p[|p| - 1]]
  }

  /** POSIX `path.basename`: the last non-empty segment of a path. */
  function Basename(p: string): string {
    AfterLastSlash(DropTrailingSlashes(p))
  }

  lemma {:induction false} AfterLastSlashOf(dir: string, name: string)
    requires '/' !in name
    ensures AfterLastSlash(dir + "/" + name) == name
    decreases |name|
  {
    var p := dir + "/" + name;
    if |name| > 0 {
      var name' := name[..|name| - 1];
      assert p[..|p| - 1] == dir + "/" + name';
      AfterLastSlashOf(dir, name');
      assert name == name' + [name[|name| - 1]];
    } else {
      assert p[|p| - 1] == '/';
    }
  }

  /** The basename of a file inside a directory is the file's own name. */
  lemma BasenameOfChild(dir: string, name: string)
    requires |name| > 0 && '/' !in name
    ensures Basename(dir + "/" + name) == name
  {
    var p := dir + "/" + name;
    assert p[|p| - 1] == name[|name| - 1];
    AfterLastSlashOf(dir, name);
  }

  const UploadFailed: string := "Unable to extract text from the provided file"

  /** `uploadDocument`.  `file` is what multer stored (None: no file under
      the field), `caller` the authenticated `sub`. */
  function UploadDocument(docs: seq<Document>, file: Option<UploadedFile>, contents: FileContents,
                          maxChars: int, caller: Option<int>): (r: UploadResult)
    ensures r.outcome.Reply? && r.outcome.status in {201, 400, 401, 422}
    ensures file.None? ==> r == UploadResult(Reply(400, UploadMessage("No file uploaded")), docs, false)
    ensures r.unlinked <==> r.outcome.status == 422
    ensures r.outcome.status == 201 <==> |r.docs| == |docs| + 1
    ensures r.outcome.status != 201 ==> r.docs == docs
    ensures r.outcome.status == 201 ==>
              && file.Some?
              && r.docs[..|docs|] == docs
              && r.outcome.body == CreatedId(|docs| + 1)
              && var doc := r.docs[|docs|];
                 var extracted := ExtractTextFromFile(file.value.mimeType, contents.scan, contents.pdf, contents.raw);
                 && extracted.Extracted?
                 && doc.textContent <= extracted.text
                 && (0 <= maxChars ==> |doc.textContent| <= maxChars)
                 && !AllSpace(doc.textContent)
                 && caller.Some? && doc.userId == caller.value != 0
                 && doc.storagePath == "/uploads/" + Basename(file.value.storagePath)
                 && doc.textContent == SliceTo(extracted.text, maxChars)
                 && doc.originalFilename == file.value.originalName
                 && doc.mimeType == file.value.mimeType && doc.sizeBytes == file.value.size
    ensures file.Some? && ExtractTextFromFile(file.value.mimeType, contents.scan, contents.pdf, contents.raw).Rejected?
            ==> var message := ExtractTextFromFile(file.value.mimeType, contents.scan, contents.pdf, contents.raw).message;
                r == UploadResult(Reply(422, UploadMessage(if message == "" then UploadFailed else message)), docs, true)
    ensures file.Some? && ExtractTextFromFile(file.value.mimeType, contents.scan, contents.pdf, contents.raw).Extracted?
            && AllSpace(SliceTo(ExtractTextFromFile(file.value.mimeType, contents.scan, contents.pdf, contents.raw).text, maxChars))
            ==> r == UploadResult(Reply(422, UploadMessage(UploadFailed)), docs, true)
    ensures r.outcome.status == 401 <==>
              && file.Some?
              && var extracted := ExtractTextFromFile(file.value.mimeType, contents.scan, contents.pdf, contents.raw);
                 && extracted.Extracted?
                 && !AllSpace(SliceTo(extracted.text, maxChars))
                 && (caller.None? || caller.value == 0)
    ensures r.outcome.status == 401 ==> r.outcome.body == UploadMessage("Unauthorized")
    ensures (&& file.Some?
             && var extracted := ExtractTextFromFile(file.value.mimeType, contents.scan, contents.pdf, contents.raw);
                && extracted.Extracted?
                && !AllSpace(SliceTo(extracted.text, maxChars))
                && caller.Some? && caller.value != 0)
            ==> r.outcome.status == 201
  {
    if file.None? then UploadResult(Reply(400, UploadMessage("No file uploaded")), docs, false)
    else
      var f := file.value;
      match ExtractTextFromFile(f.mimeType, contents.scan, contents.pdf, contents.raw)
      case Rejected(message) =>
        UploadResult(Reply(422, UploadMessage(if message == "" then UploadFailed else message)), docs, true)
      case Extracted(text) =>
        var textContent := SliceTo(text, maxChars);
        if |Trim(textContent)| == 0 then UploadResult(Reply(422, UploadMessage(UploadFailed)), docs, true)
        else if caller.None? || caller.value == 0 then UploadResult(Reply(401, UploadMessage("Unauthorized")), docs, false)
        else
          var doc := Document(caller.value, f.originalName, f.mimeType, f.size,
                              "/uploads/" + Basename(f.storagePath), textContent);
          UploadResult(Reply(201, CreatedId(|docs| + 1)), docs + [doc], false)
  }

  /** Every stored text is in canonical whitespace form: a prefix of
      normalised text is itself normalised. */
  lemma UploadStoresNormalizedText(docs: seq<Document>, file: Option<UploadedFile>, contents: FileContents,
                                   maxChars: int, caller: Option<int>)
    requires forall k :: 0 <= k < |docs| ==> IsNormalized(docs[k].textContent)
    ensures var r := UploadDocument(docs, file, contents, maxChars, caller);
            forall k :: 0 <= k < |r.docs| ==> IsNormalized(r.docs[k].textContent)
  {
    var r := UploadDocument(docs, file, contents, maxChars, caller);
    if r.outcome.status == 201 {
      var doc := r.docs[|docs|];
      var text := ExtractTextFromFile(file.value.mimeType, contents.scan, contents.pdf, contents.raw).text;
      assert IsNormalized(text);
      assert doc.textContent == text[..|doc.textContent|];
      assert forall k :: 0 <= k < |doc.textContent| ==> doc.textContent[k] == text[k];
      assert IsNormalized(doc.textContent);
      assert forall k :: 0 <= k < |docs| ==> r.docs[k] == docs[k];
    }
  }

  /** A Word document whose normalised text fits under the cap and is not
      blank is stored with exactly that text, and its file is kept. */
  lemma DocxRoundTrip(docs: seq<Document>, f: UploadedFile, scan: Option<seq<byte>>, pdf: PdfParse,
                      content: string, maxChars: int, caller: int)
    requires f.mimeType == Mime.Docx
    requires |NormalizeWhitespace(content)| <= maxChars && !AllSpace(NormalizeWhitespace(content))
    requires caller != 0
    ensures var r := UploadDocument(docs, Some(f), FileContents(scan, pdf, RawValue(Some(content))), maxChars, Some(caller));
            && r.outcome == Reply(201, CreatedId(|docs| + 1))
            && r.docs[|docs|].textContent == NormalizeWhitespace(content)
            && !r.unlinked
  {
    var r := UploadDocument(docs, Some(f), FileContents(scan, pdf, RawValue(Some(content))), maxChars, Some(caller));
    var text := NormalizeWhitespace(content);
    assert ExtractTextFromFile(f.mimeType, scan, pdf, RawValue(Some(content))) == Extracted(text);
    assert SliceTo(text, maxChars) == text;
  }

  /** A PDF whose trimmed text layer is at most 1000 characters is refused
      with 422 and its file unlinked, whatever else it holds. */
  lemma ShortPdfRefused(docs: seq<Document>, f: UploadedFile, bytes: seq<byte>, text: string, raw: RawText,
                        maxChars: int, caller: Option<int>)
    requires f.mimeType == Mime.Pdf && !PdfContainsImages(bytes)
    requires |Trim(text)| <= MinPdfTextLength
    ensures UploadDocument(docs, Some(f), FileContents(Some(bytes), Parsed(Some(text)), raw), maxChars, caller)
            == UploadResult(Reply(422, UploadMessage(NoExtractableText)), docs, true)
  {
  }

  /** The file the intake stored under its generated name is recorded under
      `/uploads/` with that same name, whatever directory holds the uploads. */
  lemma RecordedPathIsStoredName(docs: seq<Document>, uploadsRoot: string, originalName: string, mimeType: string,
                                 size: nat, env: Option<string>, nowMs: nat, random: nat,
                                 contents: FileContents, maxChars: int, caller: Option<int>)
    requires Upload.UploadIntake(mimeType, size, originalName, env, nowMs, random).Stored?
    ensures var name := Upload.UploadIntake(mimeType, size, originalName, env, nowMs, random).filename;
            var f := UploadedFile(originalName, mimeType, size, uploadsRoot + "/" + name);
            var r := UploadDocument(docs, Some(f), contents, maxChars, caller);
            r.outcome.status == 201 ==> r.docs[|docs|].storagePath == "/uploads/" + name
  {
    var name := Upload.UploadIntake(mimeType, size, originalName, env, nowMs, random).filename;
    Upload.StoredNameIsSegment(nowMs, random, originalName);
    BasenameOfChild(uploadsRoot, name);
  }

  // ---------------------------------------------------------------------
  // askQuestion
  // ---------------------------------------------------------------------

  const MaxWords: nat := 90_000

  /** `fullText.length ? fullText.split(/\s+/g) : []`. */
  function Words(fullText: string): seq<string> {
    if |fullText| == 0 then [] else SplitWs(fullText)
  }

  /** The context of the prompt: the trimmed text when it has at most
      `MaxWords` words, else its first `MaxWords` words joined by single
      spaces.  The context never exceeds the word cap; over the cap its words are
      exactly the first `MaxWords` words of the text. */
  function Context(textContent: string): (context: string)
    ensures |Words(context)| <= MaxWords
    ensures |Words(Trim(textContent))| <= MaxWords ==> context == Trim(textContent)
    ensures |Words(Trim(textContent))| > MaxWords ==> Words(context) == Words(Trim(textContent))[..MaxWords]
  {
    var fullText := Trim(textContent);
    var words := Words(fullText);
    if |words| > MaxWords then
      SplitYieldsWords(fullText);
      var kept := words[..MaxWords];
      assert forall k :: 0 <= k < |kept| ==> IsWord(kept[k]);
      JoinEnds(kept);
      SplitJoin(kept);
      Join(kept, " ")
    else fullText
  }

  /** Over the cap the kept words are joined by single plain spaces: with
      the word list fixed by `Context`'s contract, this fixes the context
      character for character. */
  lemma ContextSingleSpaced(textContent: string)
    ensures |Words(Trim(textContent))| > MaxWords ==> SingleSpaced(Context(textContent))
  {
    var fullText := Trim(textContent);
    var words := Words(fullText);
    if |words| > MaxWords {
      SplitYieldsWords(fullText);
      var kept := words[..MaxWords];
      assert forall k :: 0 <= k < |kept| ==> IsWord(kept[k]);
      JoinSingleSpaced(kept);
    }
  }

  datatype ChatMessage = ChatMessage(role: string, content: string)

  const SystemPrompt: string := "You are an assistant that answers questions based only on the provided PDF context."
  const AskModel: string := "llama-3.3-70b-versatile"

  /** The two messages sent upstream: the fixed system instruction, then the
      context and the question. */
  function Prompt(context: string, question: string): (messages: seq<ChatMessage>)
    ensures |messages| == 2 && messages[0] == ChatMessage("system", SystemPrompt)
    ensures messages[1].role == "user"
    ensures var u := messages[1].content;
            && |u| == 21 + |context| + |question|
            && u[..9] == "Context:\n"
            && u[9..9 + |context|] == context
            && u[9 + |context|..21 + |context|] == "\n\nQuestion: "
            && u[21 + |context|..] == question
  {
    [ChatMessage("system", SystemPrompt), ChatMessage("user", "Context:\n" + context + "\n\nQuestion: " + question)]
  }

  /** What the chat-completion endpoint did: answered 2xx with JSON (whether
      it had a `choices` array, and the first choice's message content if
      any), answered with another status and a body text, or made the call
      throw (network failure, a body that is not JSON). */
  datatype Upstream = UpstreamOk(hasChoices: bool, content: Option<string>)
                    | UpstreamNotOk(body: string)
                    | UpstreamThrew(message: string)

  datatype AskBody = AskMessage(message: string)
                   | Answer(answer: string)
                   | UpstreamError(message: string, detail: string)
                   | Relayed(response: string)

  /** `process.env.GROQ_API_KEY || process.env.GROQ_API_TOKEN`. */
  function AskApiKey(apiKey: Option<string>, apiToken: Option<string>): (key: Option<string>)
    ensures key.Some? ==> key.value != ""
    ensures key.Some? <==> (apiKey.Some? && apiKey.value != "") || (apiToken.Some? && apiToken.value != "")
    ensures apiKey.Some? && apiKey.value != "" ==> key == apiKey
    ensures key.Some? && key != apiKey ==> key == apiToken
  {
    if apiKey.Some? && apiKey.value != "" then apiKey
    else if apiToken.Some? && apiToken.value != "" then apiToken
    else None
  }

  /** `Document.findByPk(parseInt(idParam, 10))`. */
  function FindDocument(docs: seq<Document>, idParam: string): (d: Option<Document>)
    ensures d.Some? <==> ParseInt(idParam).Some? && 1 <= ParseInt(idParam).value <= |docs|
    ensures d.Some? ==> d.value == docs[ParseInt(idParam).value - 1]
  {
    var id := ParseInt(idParam);
    if id.Some? && 1 <= id.value <= |docs| then Some(docs[id.value - 1]) else None
  }

  /** `askQuestion`.  The endpoint is consulted with the model name and the
      messages; everything checked before that call does not depend on it. */
  function AskQuestion(docs: seq<Document>, idParam: string, question: Option<string>,
                       apiKey: Option<string>, apiToken: Option<string>,
                       upstream: (string, seq<ChatMessage>) -> Upstream): (r: Outcome<AskBody>)
    ensures (question.None? || question.value == "") ==> r == Reply(400, AskMessage("Question is required"))
    ensures question.Some? && question.value != "" && FindDocument(docs, idParam).None?
            ==> r == Reply(404, AskMessage("Not found"))
    ensures question.Some? && question.value != "" && FindDocument(docs, idParam).Some?
            && AskApiKey(apiKey, apiToken).None?
            ==> r == Reply(500, AskMessage("Groq API key not configured"))
    ensures r.Reply? && r.status !in {400, 404, 500} ==>
              && question.Some? && FindDocument(docs, idParam).Some? && AskApiKey(apiKey, apiToken).Some?
              && var sent := upstream(AskModel, Prompt(Context(FindDocument(docs, idParam).value.textContent), question.value));
                 && (r.status == 502 <==> sent.UpstreamNotOk?)
                 && (r.status == 502 ==> r.body == UpstreamError("Groq API error", sent.body))
                 && (r.status == 200 ==> sent.UpstreamOk? && r.body == Answer(sent.content.GetOr("")))
    ensures question.Some? && question.value != "" && FindDocument(docs, idParam).Some?
            && AskApiKey(apiKey, apiToken).Some?
            ==> var sent := upstream(AskModel, Prompt(Context(FindDocument(docs, idParam).value.textContent), question.value));
                && (sent.UpstreamNotOk? ==> r == Reply(502, UpstreamError("Groq API error", sent.body)))
                && (sent.UpstreamOk? ==> r == Reply(200, Answer(sent.content.GetOr(""))))
                && (sent.UpstreamThrew? ==> r == Next(OtherError(Some(sent.message), None)))
  {
    if question.None? || question.value == "" then Reply(400, AskMessage("Question is required"))
    else
      var doc := FindDocument(docs, idParam);
      if doc.None? then Reply(404, AskMessage("Not found"))
      else if AskApiKey(apiKey, apiToken).None? then Reply(500, AskMessage("Groq API key not configured"))
      else
        var context := Context(doc.value.textContent);
        match upstream(AskModel, Prompt(context, question.value))
        case UpstreamNotOk(body) => Reply(502, UpstreamError("Groq API error", body))
        case UpstreamOk(_, content) => Reply(200, Answer(content.GetOr("")))
        case UpstreamThrew(message) => Next(OtherError(Some(message), None))
  }

  /** A missing question, an unknown document and a missing key are all
      decided before the endpoint is called: two endpoints that differ
      arbitrarily give the same answer. */
  lemma AskChecksBeforeUpstream(docs: seq<Document>, idParam: string, question: Option<string>,
                                apiKey: Option<string>, apiToken: Option<string>,
                                up1: (string, seq<ChatMessage>) -> Upstream,
                                up2: (string, seq<ChatMessage>) -> Upstream)
    requires question.None? || question.value == "" || FindDocument(docs, idParam).None?
             || AskApiKey(apiKey, apiToken).None?
    ensures AskQuestion(docs, idParam, question, apiKey, apiToken, up1)
            == AskQuestion(docs, idParam, question, apiKey, apiToken, up2)
    ensures AskQuestion(docs, idParam, question, apiKey, apiToken, up1).Reply?
    ensures AskQuestion(docs, idParam, question, apiKey, apiToken, up1).status in {400, 404, 500}
  {
  }

  // ---------------------------------------------------------------------
  // askGroqQuestion
  // ---------------------------------------------------------------------

  /** The `messages` field of the request body. */
  datatype MessagesField = MessagesMissing | NotAnArray | MessageArray(items: seq<ChatMessage>)

  const DefaultGroqModel: string := "openai/gpt-oss-20b"

  /** V8's message for reading index 0 of `undefined`. */
  const NoChoicesMessage: string := "Cannot read properties of undefined (reading '0')"

  /** `callGroqAPI`: only `GROQ_API_KEY` is consulted; every failure throws. */
  function CallGroqApi(messages: seq<ChatMessage>, model: Option<string>, apiKey: Option<string>,
                       upstream: (string, seq<ChatMessage>) -> Upstream): (r: Outcome<string>)
    ensures r.Reply? ==> r.status == 200
    ensures (apiKey.None? || apiKey.value == "") ==> r.Next?
    ensures r.Reply? ==> var sent := upstream(model.GetOr(DefaultGroqModel), messages);
                         sent.UpstreamOk? && sent.hasChoices && r.body == sent.content.GetOr("")
    ensures apiKey.Some? && apiKey.value != "" ==>
              var sent := upstream(model.GetOr(DefaultGroqModel), messages);
              && (sent.UpstreamOk? && sent.hasChoices ==> r == Reply(200, sent.content.GetOr("")))
              && (sent.UpstreamOk? && !sent.hasChoices ==> r == Next(OtherError(Some(NoChoicesMessage), None)))
              && (sent.UpstreamNotOk? ==> r == Next(OtherError(Some("Groq API error: " + sent.body), None)))
              && (sent.UpstreamThrew? ==> r == Next(OtherError(Some(sent.message), None)))
  {
    if apiKey.None? || apiKey.value == "" then
      Next(OtherError(Some("GROQ_API_KEY is not set in environment variables"), None))
    else
      match upstream(model.GetOr(DefaultGroqModel), messages)
      case UpstreamNotOk(body) => Next(OtherError(Some("Groq API error: " + body), None))
      case UpstreamThrew(message) => Next(OtherError(Some(message), None))
      case UpstreamOk(hasChoices, content) =>
        if !hasChoices then Next(OtherError(Some(NoChoicesMessage), None))
        else Reply(200, content.GetOr(""))
  }

  /** `askGroqQuestion`: a missing, non-array or empty `messages` gives 400
      before any call; otherwise the reply relays `callGroqAPI`'s answer and
      its errors go to the error middleware. */
  function AskGroqQuestion(messages: MessagesField, model: Option<string>, apiKey: Option<string>,
                           upstream: (string, seq<ChatMessage>) -> Upstream): (r: Outcome<AskBody>)
    ensures !(messages.MessageArray? && |messages.items| > 0) ==> r == Reply(400, AskMessage("Messages array is required"))
    ensures r.Reply? && r.status != 400 ==>
              && messages.MessageArray?
              && CallGroqApi(messages.items, model, apiKey, upstream).Reply?
              && r == Reply(200, Relayed(CallGroqApi(messages.items, model, apiKey, upstream).body))
    ensures r.Next? ==> messages.MessageArray? && CallGroqApi(messages.items, model, apiKey, upstream) == Next(r.error)
    ensures messages.MessageArray? && |messages.items| > 0 ==>
              var called := CallGroqApi(messages.items, model, apiKey, upstream);
              && (called.Reply? ==> r == Reply(200, Relayed(called.body)))
              && (called.Next? ==> r == Next(called.error))
  {
    if !(messages.MessageArray? && |messages.items| > 0) then Reply(400, AskMessage("Messages array is required"))
    else
      match CallGroqApi(messages.items, model, apiKey, upstream)
      case Next(err) => Next(err)
      case Reply(_, response) => Reply(200, Relayed(response))
  }

  /** End to end over a non-empty message list: the relay answers exactly
      when a key is set and the endpoint's reply carries `choices`, and then
      with that reply's first content. */
  lemma AskGroqRelaysAnswer(items: seq<ChatMessage>, model: Option<string>, apiKey: Option<string>,
                            upstream: (string, seq<ChatMessage>) -> Upstream)
    requires |items| > 0
    ensures var sent := upstream(model.GetOr(DefaultGroqModel), items);
            var r := AskGroqQuestion(MessageArray(items), model, apiKey, upstream);
            && (r.Reply? <==> apiKey.Some? && apiKey.value != "" && sent.UpstreamOk? && sent.hasChoices)
            && (r.Reply? ==> r == Reply(200, Relayed(sent.content.GetOr(""))))
  {
  }
}

=== FILE: errors.dfy ===
/** The error middleware: the errors handlers pass to `next`, and how
    `errorHandler` and `notFoundHandler` turn them into responses. */
module Errors {
  import opened Options

  /** One entry of a Sequelize validation error's `errors` list. */
  datatype ValidationItem = ValidationItem(message: string, path: string)

  /** The values handed to `next(err)`: the application's `ApiError`, a
      Sequelize `ValidationError` (or subclass), a jsonwebtoken
      `JsonWebTokenError` (or subclass, such as `TokenExpiredError`), or
      anything else that was thrown, with its `message` and `stack` if any. */
  datatype JsError =
    | ApiError(statusCode: int, message: string, details: Option<string>)
    | ValidationError(items: seq<ValidationItem>)
    | JwtError(message: string)
    | OtherError(thrownMessage: Option<string>, stack: Option<string>)

  datatype ErrorInfo = ErrorInfo(message: Option<string>, stack: Option<string>)

  /** The JSON bodies the error middleware sends. */
  datatype ErrorBody =
    | Described(message: string, details: Option<string>)
    | Invalid(message: string, items: seq<ValidationItem>)
    | Plain(message: string)
    | Internal(message: string, error: Option<ErrorInfo>)

  datatype Response<B> = Response(status: int, body: B)

  /** What an Express handler does with a request: answer it with a status
      and a JSON body, or hand an error to `next`. */
  datatype Outcome<B> = Reply(status: int, body: B) | Next(error: JsError)

  const CorsRejection: string := "Not allowed by CORS"

  /** `process.env.NODE_ENV === 'production'`. */
  predicate IsProduction(nodeEnv: Option<string>) {
    nodeEnv == Some("production")
  }

  /** `errorHandler`: the first matching rule in source order decides. */
  function ErrorHandler(err: JsError, isProduction: bool): (r: Response<ErrorBody>)
    ensures err.ApiError? ==> r == Response(err.statusCode, Described(err.message, err.details))
    ensures !err.ApiError? ==> (r.status == 400 <==> err.ValidationError?)
    ensures !err.ApiError? ==> (r.status == 401 <==> err.JwtError?)
    ensures !err.ApiError? ==> (r.status == 403 <==> err.OtherError? && err.thrownMessage == Some(CorsRejection))
    ensures !err.ApiError? ==> r.status in {400, 401, 403, 500}
    ensures r.body.Internal? <==> r.status == 500 && !err.ApiError?
    ensures r.body.Internal? ==> r.body.message == "Internal Server Error" && (r.body.error.Some? <==> !isProduction)
    ensures err.ValidationError? ==> r.body == Invalid("Validation failed", err.items)
    ensures err.JwtError? ==> r.body == Plain("Invalid or expired token")
    ensures r.status == 403 && !err.ApiError? ==> r.body == Plain("Origin not allowed")
    ensures r.body.Internal? && !isProduction ==>
              err.OtherError? && r.body.error == Some(ErrorInfo(err.thrownMessage, err.stack))
  {
    match err
    case ApiError(code, message, details) => Response(code, Described(message, details))
    case ValidationError(items) => Response(400, Invalid("Validation failed", items))
    case JwtError(_) => Response(401, Plain("Invalid or expired token"))
    case OtherError(message, stack) =>
      if message == Some(CorsRejection) then Response(403, Plain("Origin not allowed"))
      else
        var info := if isProduction then None else Some(ErrorInfo(message, stack));
        Response(500, Internal("Internal Server Error", info))
  }

  /** In production no error's message or stack reaches the client unless the
      application chose to put it into an `ApiError`. */
  lemma ProductionHidesInternals(err: JsError)
    ensures !ErrorHandler(err, true).body.Internal? || ErrorHandler(err, true).body.error.None?
  {
  }

  /** `notFoundHandler`: every request that no route took gets 404, whatever
      its path. */
  function NotFoundHandler(path: string): (r: Response<ErrorBody>)
    ensures r.status == 404 && r.body == Plain("Not Found")
  {
    Response(404, Plain("Not Found"))
  }

  /** The Express pipeline after a handler: a reply goes out as is, an error
      goes through `errorHandler`. */
  function Respond<B>(outcome: Outcome<B>, isProduction: bool): (r: Response<Result<B>>)
    ensures outcome.Reply? ==> r == Response(outcome.status, Handled(outcome.body))
    ensures outcome.Next? ==> r.status == ErrorHandler(outcome.error, isProduction).status
    ensures outcome.Next? ==> r.body == Failed(ErrorHandler(outcome.error, isProduction).body)
  {
    match outcome
    case Reply(status, body) => Response(status, Handled(body))
    case Next(err) =>
      var e := ErrorHandler(err, isProduction);
      Response(e.status, Failed(e.body))
  }

  /** A response body: the handler's own, or the error middleware's. */
  datatype Result<B> = Handled(body: B) | Failed(error: ErrorBody)
}

=== FILE: extraction.dfy ===
/** The text-extraction service: whitespace normalisation, the byte scan for
    embedded PDF images, and the MIME-type dispatch with its PDF acceptance
    rule.  The file system, pdf-parse and mammoth are outside the model: what
    they produced for one file is passed in. */
module Extraction {
  import opened Options
  import opened Seqs
  import opened JsText
  import opened Runs
  import Mime

  newtype byte = x: int | 0 <= x < 256

  // ---------------------------------------------------------------------
  // normalizeWhitespace
  // ---------------------------------------------------------------------

  const Nbsp: char := 0xA0 as char

  /** The class `[\t\f\v]`. */
  predicate IsTabLike(c: char) {
    c == '\t' || c == 0x0C as char || c == 0x0B as char
  }

  predicate IsBlank(c: char) {
    c == ' '
  }

  /** Characters that normalisation neither removes, rewrites nor produces. */
  predicate IsPlain(c: char) {
    c != '\r' && c != '\n' && !IsTabLike(c) && c != Nbsp && c != ' '
  }

  /** Stage one, `replace(/\r\n|\r/g, '\n')`: a CR LF pair and a lone CR each
      become one LF. */
  function CrToLf(s: string): (r: string)
    ensures |r| <= |s|
    ensures forall c :: c in r ==> c != '\r' && (c == '\n' || c in s)
    decreases |s|
  {
    if |s| == 0 then ""
    else if s[0] == '\r' then
      if |s| > 1 && s[1] == '\n' then "\n" + CrToLf(s[2..]) else "\n" + CrToLf(s[1..])
    else [s[0]] + CrToLf(s[1..])
  }

  /** Stage three, `replace(/ /g, ' ')`. */
  function NbspToSpace(s: string): (r: string) {
    seq(|s|, k requires 0 <= k < |s| => if s[k] == Nbsp then ' ' else s[k])
  }

  /** `normalizeWhitespace`: CR LF and CR to LF, each run of tab, form feed and
      vertical tab to one space, NBSP to space, each run of spaces to one.
      The output is in canonical form and never longer than the input. */
  function NormalizeWhitespace(text: string): (r: string)
    ensures IsNormalized(r)
    ensures |r| <= |text|
  {
    var s1 := CrToLf(text);
    var s2 := CollapseRuns(IsTabLike, ' ', s1);
    var s3 := NbspToSpace(s2);
    var s4 := CollapseRuns(IsBlank, ' ', s3);
    assert forall k :: 0 <= k < |s2| ==> s2[k] in s2;
    assert forall k :: 0 <= k < |s2| ==> s2[k] != '\r' && !IsTabLike(s2[k]);
    assert forall k :: 0 <= k < |s3| ==> s3[k] != '\r' && !IsTabLike(s3[k]) && s3[k] != Nbsp;
    assert forall k :: 0 <= k < |s4| ==> s4[k] in s4;
    s4
  }

  /** Canonical whitespace: no CR, tab, form feed, vertical tab or NBSP, and
      no two consecutive spaces. */
  predicate IsNormalized(s: string) {
    && (forall k :: 0 <= k < |s| ==> s[k] != '\r' && !IsTabLike(s[k]) && s[k] != Nbsp)
    && (forall k :: 0 < k < |s| ==> !(s[k - 1] == ' ' && s[k] == ' '))
  }

  lemma {:induction false} CrToLfIdentity(s: string)
    requires '\r' !in s
    ensures CrToLf(s) == s
    decreases |s|
  {
    if |s| > 0 {
      assert s[0] != '\r';
      CrToLfIdentity(s[1..]);
      assert s == [s[0]] + s[1..];
    }
  }

  /** Normalisation leaves a string unchanged exactly when it is already in
      canonical form. */
  lemma NormalizeFixpoint(text: string)
    ensures NormalizeWhitespace(text) == text <==> IsNormalized(text)
  {
    if IsNormalized(text) {
      assert '\r' !in text;
      CrToLfIdentity(text);
      CollapseFixpoint(IsTabLike, ' ', text);
      assert NbspToSpace(text) == text;
      CollapseFixpoint(IsBlank, ' ', text);
    }
  }

  /** Normalising twice is normalising once. */
  lemma NormalizeIdempotent(text: string)
    ensures NormalizeWhitespace(NormalizeWhitespace(text)) == NormalizeWhitespace(text)
  {
    NormalizeFixpoint(NormalizeWhitespace(text));
  }

  lemma {:induction false} CrToLfKeeps(s: string)
    ensures Filter(IsPlain, CrToLf(s)) == Filter(IsPlain, s)
    decreases |s|
  {
    if |s| > 0 {
      if s[0] == '\r' {
        if |s| > 1 && s[1] == '\n' {
          FilterAppend(IsPlain, "\n", CrToLf(s[2..]));
          CrToLfKeeps(s[2..]);
          assert s[1..][1..] == s[2..];
        } else {
          FilterAppend(IsPlain, "\n", CrToLf(s[1..]));
          CrToLfKeeps(s[1..]);
        }
      } else {
        FilterAppend(IsPlain, [s[0]], CrToLf(s[1..]));
        CrToLfKeeps(s[1..]);
      }
    }
  }

  lemma {:induction false} NbspToSpaceKeeps(q: char -> bool, s: string)
    requires !q(' ') && !q(Nbsp)
    ensures Filter(q, NbspToSpace(s)) == Filter(q, s)
    decreases |s|
  {
    if |s| > 0 {
      assert NbspToSpace(s)[1..] == NbspToSpace(s[1..]);
      NbspToSpaceKeeps(q, s[1..]);
    }
  }

  /** Normalisation never lengthens the text, and every character other than
      CR, LF, tab, form feed, vertical tab, NBSP and space survives it, in its
      original order. */
  lemma NormalizeKeepsText(text: string)
    ensures |NormalizeWhitespace(text)| <= |text|
    ensures Filter(IsPlain, NormalizeWhitespace(text)) == Filter(IsPlain, text)
  {
    var s1 := CrToLf(text);
    var s2 := CollapseRuns(IsTabLike, ' ', s1);
    var s3 := NbspToSpace(s2);
    CrToLfKeeps(text);
    CollapseKeeps(IsTabLike, ' ', IsPlain, s1, false);
    NbspToSpaceKeeps(IsPlain, s2);
    CollapseKeeps(IsBlank, ' ', IsPlain, s3, false);
  }

  /** The number of CR LF pairs in `s`. */
  function CrLfPairs(s: string): nat {
    if |s| < 2 then 0 else (if s[0] == '\r' && s[1] == '\n' then 1 else 0) + CrLfPairs(s[1..])
  }

  lemma {:induction false} CrToLfLineBreaks(s: string)
    ensures Count('\n', CrToLf(s)) + CrLfPairs(s) == Count('\n', s) + Count('\r', s)
    decreases |s|
  {
    if |s| > 0 {
      if s[0] == '\r' && |s| > 1 && s[1] == '\n' {
        CountAppend('\n', "\n", CrToLf(s[2..]));
        CrToLfLineBreaks(s[2..]);
        assert s[1..][1..] == s[2..];
        assert CrLfPairs(s[1..]) == CrLfPairs(s[2..]);
      } else if s[0] == '\r' {
        CountAppend('\n', "\n", CrToLf(s[1..]));
        CrToLfLineBreaks(s[1..]);
      } else {
        CountAppend('\n', [s[0]], CrToLf(s[1..]));
        CrToLfLineBreaks(s[1..]);
      }
    }
  }

  lemma {:induction false} NbspToSpaceCount(x: char, s: string)
    requires x != ' ' && x != Nbsp
    ensures Count(x, NbspToSpace(s)) == Count(x, s)
    decreases |s|
  {
    if |s| > 0 {
      assert NbspToSpace(s)[1..] == NbspToSpace(s[1..]);
      NbspToSpaceCount(x, s[1..]);
    }
  }

  /** Every CR LF pair and every lone CR becomes exactly one LF, and existing
      LFs are all kept: the output has as many LFs as the input had line
      breaks of either kind. */
  lemma NormalizeLineBreaks(text: string)
    ensures Count('\n', NormalizeWhitespace(text)) + CrLfPairs(text)
            == Count('\n', text) + Count('\r', text)
  {
    var s1 := CrToLf(text);
    var s2 := CollapseRuns(IsTabLike, ' ', s1);
    var s3 := NbspToSpace(s2);
    CrToLfLineBreaks(text);
    CollapseCountOther(IsTabLike, ' ', '\n', s1, false);
    NbspToSpaceCount('\n', s2);
    CollapseCountOther(IsBlank, ' ', '\n', s3, false);
  }

  // ---------------------------------------------------------------------
  // pdfContainsImages
  // ---------------------------------------------------------------------

  /** The latin1 reading of a buffer: byte b is the character U+00bb. */
  function Latin1(bytes: seq<byte>): (s: string)
    ensures |s| == |bytes|
    ensures forall k :: 0 <= k < |s| ==> s[k] as int == bytes[k] as int
  {
    seq(|bytes|, k requires 0 <= k < |bytes| => (bytes[k] as int) as char)
  }

  /** Over latin1 text `\s` matches exactly the bytes 0x09 to 0x0D, 0x20 and
      0xA0. */
  lemma Latin1Spaces(b: byte)
    ensures IsSpace((b as int) as char) <==> (0x09 <= b <= 0x0D || b == 0x20 || b == 0xA0)
  {
  }

  const SubtypeKey: string := "/Subtype"
  const ImageName: string := "/Image"

  predicate Occurs(s: string, i: nat, pattern: string) {
    i + |pattern| <= |s| && s[i..i + |pattern|] == pattern
  }

  /** The regular expression `/\/Subtype\s*\/Image/` matches somewhere in `s`. */
  ghost predicate HasImageMarker(s: string) {
    exists i: nat, j: nat ::
      && i + |SubtypeKey| <= j
      && Occurs(s, i, SubtypeKey)
      && Occurs(s, j, ImageName)
      && AllSpace(s[i + |SubtypeKey|..j])
  }

  /** The match attempt at `i`: `/Subtype`, then as many spaces as there are,
      then `/Image`.  Giving back spaces never helps, since `/` is not one. */
  predicate MarkerAt(s: string, i: nat) {
    && Occurs(s, i, SubtypeKey)
    && Occurs(s, SkipSpaces(s, i + |SubtypeKey|), ImageName)
  }

  /** Whether some match attempt at or after `i` succeeds. */
  function ScanFrom(s: string, i: nat): (found: bool)
    requires i <= |s|
    ensures found <==> exists k :: i <= k < |s| && MarkerAt(s, k)
    decreases |s| - i
  {
    if i == |s| then false else MarkerAt(s, i) || ScanFrom(s, i + 1)
  }

  lemma MarkerAtMatches(s: string, i: nat)
    requires MarkerAt(s, i)
    ensures HasImageMarker(s)
  {
    var j := SkipSpaces(s, i + |SubtypeKey|);
    assert AllSpace(s[i + |SubtypeKey|..j]);
  }

  lemma MatchHasMarkerAt(s: string, i: nat, j: nat)
    requires i + |SubtypeKey| <= j
    requires Occurs(s, i, SubtypeKey) && Occurs(s, j, ImageName)
    requires AllSpace(s[i + |SubtypeKey|..j])
    ensures i < |s| && MarkerAt(s, i)
  {
    var a := i + |SubtypeKey|;
    var e := SkipSpaces(s, a);
    assert s[j] == s[j..j + |ImageName|][0] == '/';
    assert forall k :: a <= k < j ==> IsSpace(s[k]) by {
      forall k | a <= k < j ensures IsSpace(s[k]) {
        assert s[k] == s[a..j][k - a];
      }
    }
    assert e == j;
  }

  /** `pdfContainsImages`: the latin1 view of the buffer matches
      `/\/Subtype\s*\/Image/`. */
  function PdfContainsImages(bytes: seq<byte>): (found: bool)
    ensures found <==> HasImageMarker(Latin1(bytes))
  {
    var s := Latin1(bytes);
    if ScanFrom(s, 0) then
      var k :| 0 <= k < |s| && MarkerAt(s, k);
      MarkerAtMatches(s, k);
      true
    else
      assert !HasImageMarker(s) by {
        if HasImageMarker(s) {
          var i: nat, j: nat :| && i + |SubtypeKey| <= j && Occurs(s, i, SubtypeKey)
                                && Occurs(s, j, ImageName) && AllSpace(s[i + |SubtypeKey|..j]);
          MatchHasMarkerAt(s, i, j);
        }
      }
      false
  }

  // ---------------------------------------------------------------------
  // extractTextFromFile
  // ---------------------------------------------------------------------

  /** What pdf-parse made of the file: its `text` field, or a throw.  A failure
      of the second read of the file lands in the same `catch`, so it is a
      throw here too. */
  datatype PdfParse = Parsed(text: Option<string>) | ParseThrew

  /** What mammoth's `extractRawText` made of the file: its `value` field, or
      the message of what it threw. */
  datatype RawText = RawValue(value: Option<string>) | RawThrew(message: string)

  /** The extractor's result: the normalised text, or the message of the
      error it threw. */
  datatype Extraction = Extracted(text: string) | Rejected(message: string)

  const UnableToVerify: string := "Unable to verify PDF contents"
  const ContainsImages: string := "PDF contains images which are not allowed"
  const NoExtractableText: string := "PDF appears to be scanned or contains no extractable text"
  const ImagesNotAllowed: string := "Image files are not allowed"
  const UnsupportedType: string := "Unsupported file type for extraction"

  /** A PDF's trimmed text must be strictly longer than this. */
  const MinPdfTextLength: nat := 1000

  predicate IsWordType(mimeType: string) {
    mimeType == Mime.Msword || mimeType == Mime.Docx
  }

  /** `extractTextFromFile`.  `scan` is the first read of the file (None when
      it fails), `pdf` and `raw` what the two parsers produce for it.  The
      image check throws inside its own `try`, so its message is replaced by
      the one of the `catch`. */
  function ExtractTextFromFile(mimeType: string, scan: Option<seq<byte>>, pdf: PdfParse, raw: RawText): (r: Extraction)
    ensures r.Extracted? ==> IsNormalized(r.text)
    ensures r.Rejected? && mimeType == Mime.Pdf ==> r.message == UnableToVerify || r.message == NoExtractableText
    ensures mimeType == Mime.Pdf && (scan.None? || PdfContainsImages(scan.value)) ==> r == Rejected(UnableToVerify)
    ensures mimeType == Mime.Pdf && r.Extracted? ==> pdf.Parsed? && |Trim(pdf.text.GetOr(""))| > MinPdfTextLength
    ensures IsWordType(mimeType) ==> (r.Rejected? <==> raw.RawThrew?)
    ensures r.Extracted? ==> mimeType == Mime.Pdf || IsWordType(mimeType)
  {
    if mimeType == Mime.Pdf then
      var scanFailed := scan.None? || PdfContainsImages(scan.value);
      if scanFailed then Rejected(UnableToVerify)
      else if pdf.ParseThrew? then Rejected(NoExtractableText)
      else
        var text := Trim(pdf.text.GetOr(""));
        if |text| > MinPdfTextLength then
          Extracted(NormalizeWhitespace(text))
        else Rejected(NoExtractableText)
    else if IsWordType(mimeType) then
      match raw
      case RawThrew(message) => Rejected(message)
      case RawValue(value) =>
        Extracted(NormalizeWhitespace(value.GetOr("")))
    else if StartsWith(mimeType, "image/") then Rejected(ImagesNotAllowed)
    else Rejected(UnsupportedType)
  }

  /** The message the image check means to throw never reaches the caller:
      a PDF that the scan flags is rejected as unverifiable instead. */
  lemma ImageMessageSwallowed(bytes: seq<byte>, pdf: PdfParse, raw: RawText)
    requires PdfContainsImages(bytes)
    ensures ExtractTextFromFile(Mime.Pdf, Some(bytes), pdf, raw) == Rejected(UnableToVerify)
    ensures ExtractTextFromFile(Mime.Pdf, Some(bytes), pdf, raw) != Rejected(ContainsImages)
  {
  }

  /** A PDF that passes the scan is accepted exactly when its trimmed text is
      longer than the threshold, and then yields that text normalised; short
      text and a parser failure both give the no-extractable-text error. */
  lemma PdfAcceptance(bytes: seq<byte>, pdf: PdfParse, raw: RawText)
    requires !PdfContainsImages(bytes)
    ensures var r := ExtractTextFromFile(Mime.Pdf, Some(bytes), pdf, raw);
            && (pdf.ParseThrew? ==> r == Rejected(NoExtractableText))
            && (pdf.Parsed? && |Trim(pdf.text.GetOr(""))| <= MinPdfTextLength ==> r == Rejected(NoExtractableText))
            && ((pdf.Parsed? && |Trim(pdf.text.GetOr(""))| > MinPdfTextLength)
                ==> r == Extracted(NormalizeWhitespace(Trim(pdf.text.GetOr("")))))
  {
  }

  /** Word documents yield their raw text normalised, possibly empty, or the
      parser's own error message; image types and every other type are
      rejected with fixed messages. */
  lemma WordAndOtherDispatch(mimeType: string, scan: Option<seq<byte>>, pdf: PdfParse, raw: RawText)
    ensures var r := ExtractTextFromFile(mimeType, scan, pdf, raw);
            && (IsWordType(mimeType) && raw.RawValue? ==> r == Extracted(NormalizeWhitespace(raw.value.GetOr(""))))
            && (IsWordType(mimeType) && raw.RawThrew? ==> r == Rejected(raw.message))
            && ((mimeType != Mime.Pdf && !IsWordType(mimeType) && StartsWith(mimeType, "image/"))
                ==> r == Rejected(ImagesNotAllowed))
            && ((mimeType != Mime.Pdf && !IsWordType(mimeType) && !StartsWith(mimeType, "image/"))
                ==> r == Rejected(UnsupportedType))
  {
  }

  /** The dispatch looks only at the MIME type: a Word type never consults the
      PDF inputs, and the PDF type never consults mammoth. */
  lemma DispatchByType(mimeType: string, scan1: Option<seq<byte>>, pdf1: PdfParse, raw1: RawText,
                       scan2: Option<seq<byte>>, pdf2: PdfParse, raw2: RawText)
    ensures mimeType == Mime.Pdf && scan1 == scan2 && pdf1 == pdf2
            ==> ExtractTextFromFile(mimeType, scan1, pdf1, raw1) == ExtractTextFromFile(mimeType, scan2, pdf2, raw2)
    ensures mimeType != Mime.Pdf && raw1 == raw2
            ==> ExtractTextFromFile(mimeType, scan1, pdf1, raw1) == ExtractTextFromFile(mimeType, scan2, pdf2, raw2)
    ensures mimeType != Mime.Pdf && !IsWordType(mimeType)
            ==> ExtractTextFromFile(mimeType, scan1, pdf1, raw1) == ExtractTextFromFile(mimeType, scan2, pdf2, raw2)
  {
  }
}

=== FILE: js_number.dfy ===
/** `parseInt(s, 10)` and the configuration idiom `parseInt(env || '', 10) || d`
    that the server uses for its numeric environment variables. */
module JsNumber {
  import opened Options
  import opened JsText

  predicate IsDigit(c: char) {
    '0' <= c <= '9'
  }

  predicate AllDigits(s: string) {
    forall k :: 0 <= k < |s| ==> IsDigit(s[k])
  }

  function DigitValue(c: char): nat
    requires IsDigit(c)
  {
    (c as int) - ('0' as int)
  }

  function Digit(n: nat): (c: char)
    requires n < 10
    ensures IsDigit(c) && DigitValue(c) == n
  {
    (('0' as int) + n) as char
  }

  /** Index of the first non-digit of `s` at or after `i`, or |s|. */
  function DigitRun(s: string, i: nat): (j: nat)
    requires i <= |s|
    ensures i <= j <= |s|
    ensures AllDigits(s[i..j])
    ensures j < |s| ==> !IsDigit(s[j])
    decreases |s| - i
  {
    if i < |s| && IsDigit(s[i]) then DigitRun(s, i + 1) else i
  }

  /** The value of a string of decimal digits, most significant first. */
  function DigitsValue(d: string): nat
    requires AllDigits(d)
  {
    if |d| == 0 then 0 else 10 * DigitsValue(d[..|d| - 1]) + DigitValue(d[|d| - 1])
  }

  /** `parseInt(s, 10)` with `None` for NaN: leading white space is skipped,
      one optional sign is read, then the longest run of decimal digits;
      whatever follows is ignored.  No digits means NaN. */
  function ParseInt(s: string): (r: Option<int>)
    ensures AllSpace(s) ==> r.None?
    ensures r.Some? ==> exists k :: 0 <= k < |s| && IsDigit(s[k])
    ensures r.Some? && r.value < 0 ==> '-' in s
  {
    var i := SkipSpaces(s, 0);
    var negative := i < |s| && s[i] == '-';
    var start := if i < |s| && (s[i] == '-' || s[i] == '+') then i + 1 else i;
    var end := DigitRun(s, start);
    if end == start then None
    else
      assert IsDigit(s[start..end][0]);
      var v: int := DigitsValue(s[start..end]);
      Some(if negative then -v else v)
  }

  /** The shortest decimal spelling of `n`, as `String(n)` prints it. */
  function Decimal(n: nat): (d: string)
    ensures |d| >= 1 && AllDigits(d)
    ensures |d| > 1 ==> d[0] != '0'
  {
    if n < 10 then [Digit(n)] else Decimal(n / 10) + [Digit(n % 10)]
  }

  lemma {:induction false} DecimalValue(n: nat)
    ensures DigitsValue(Decimal(n)) == n
  {
    if n >= 10 {
      var d := Decimal(n);
      assert d[..|d| - 1] == Decimal(n / 10);
      DecimalValue(n / 10);
    }
  }

  /** `parseInt` reads back what `String` printed, with or without a minus
      sign, and ignores anything after the digits that is not itself a digit. */
  lemma ParseIntDecimal(n: nat, rest: string)
    requires |rest| == 0 || !IsDigit(rest[0])
    ensures ParseInt(Decimal(n) + rest) == Some(n)
    ensures ParseInt("-" + Decimal(n) + rest) == Some(-(n as int))
  {
    var d := Decimal(n);
    DecimalValue(n);
    var s := d + rest;
    assert !IsSpace(s[0]);
    assert SkipSpaces(s, 0) == 0;
    DigitRunPast(s, 0, |d|);
    assert s[0..|d|] == d;
    var t := "-" + d + rest;
    assert !IsSpace(t[0]);
    assert SkipSpaces(t, 0) == 0;
    DigitRunPast(t, 1, |d| + 1);
    assert t[1..|d| + 1] == d;
  }

  lemma {:induction false} DigitRunPast(s: string, i: nat, j: nat)
    requires i <= j <= |s|
    requires AllDigits(s[i..j])
    requires j == |s| || !IsDigit(s[j])
    ensures DigitRun(s, i) == j
    decreases j - i
  {
    if i < j {
      assert s[i] == s[i..j][0];
      assert s[i + 1..j] == s[i..j][1..];
      DigitRunPast(s, i + 1, j);
    }
  }

  /** `parseInt(env || '', 10) || fallback`: an absent or empty variable, one
      that does not parse, and one that parses to zero all give `fallback`,
      because NaN and 0 are both falsy. */
  function EnvIntOr(env: Option<string>, fallback: int): (r: int)
    ensures fallback != 0 ==> r != 0
    ensures r != fallback ==> env.Some? && ParseInt(env.value) == Some(r)
    ensures env.None? ==> r == fallback
  {
    var parsed := ParseInt(env.GetOr(""));
    if parsed.None? || parsed.value == 0 then fallback else parsed.value
  }

  /** A variable holding a positive decimal number selects that number; a
      zero or an absent variable selects the fallback. */
  lemma EnvIntOrDecimal(n: nat, fallback: int)
    ensures EnvIntOr(Some(Decimal(n)), fallback) == if n == 0 then fallback else n
    ensures EnvIntOr(None, fallback) == fallback
  {
    ParseIntDecimal(n, "");
    assert Decimal(n) + "" == Decimal(n);
  }
}

=== FILE: js_text.dfy ===
/** The parts of JavaScript string semantics the server relies on: the `\s`
    character class, `String.prototype.trim`, `startsWith`, splitting on
    `/\s+/` and `Array.prototype.join`.  A string is a sequence of `char`;
    each element counts one towards a JavaScript `length`. */
module JsText {
  import opened Runs

  /** ECMAScript WhiteSpace and LineTerminator code points: exactly the class
      the regular-expression escape `\s` matches and the set `trim` removes. */
  predicate IsSpace(c: char) {
    var n := c as int;
    || (0x09 <= n <= 0x0D)
    || n == 0x20
    || n == 0xA0
    || n == 0x1680
    || (0x2000 <= n <= 0x200A)
    || n == 0x2028
    || n == 0x2029
    || n == 0x202F
    || n == 0x205F
    || n == 0x3000
    || n == 0xFEFF
  }

  predicate AllSpace(s: string) {
    forall k :: 0 <= k < |s| ==> IsSpace(s[k])
  }

  predicate NoSpace(s: string) {
    forall k :: 0 <= k < |s| ==> !IsSpace(s[k])
  }

  /** Index of the first non-space character of `s` at or after `i`, or |s|. */
  function SkipSpaces(s: string, i: nat): (j: nat)
    requires i <= |s|
    ensures i <= j <= |s|
    ensures forall k :: i <= k < j ==> IsSpace(s[k])
    ensures j < |s| ==> !IsSpace(s[j])
    decreases |s| - i
  {
    if i < |s| && IsSpace(s[i]) then SkipSpaces(s, i + 1) else i
  }

  /** Index of the first space character of `s` at or after `i`, or |s|. */
  function NextSpace(s: string, i: nat): (j: nat)
    requires i <= |s|
    ensures i <= j <= |s|
    ensures forall k :: i <= k < j ==> !IsSpace(s[k])
    ensures j < |s| ==> IsSpace(s[j])
    decreases |s| - i
  {
    if i < |s| && !IsSpace(s[i]) then NextSpace(s, i + 1) else i
  }

  /** Index just past the last non-space character of `s[..j]`, or 0. */
  function TrimEndIndex(s: string, j: nat): (e: nat)
    requires j <= |s|
    ensures e <= j
    ensures forall k :: e <= k < j ==> IsSpace(s[k])
    ensures e > 0 ==> !IsSpace(s[e - 1])
    decreases j
  {
    if j > 0 && IsSpace(s[j - 1]) then TrimEndIndex(s, j - 1) else j
  }

  /** `String.prototype.trim`: the longest slice of `s` that neither starts
      nor ends with a space, obtained by removing only spaces. */
  function Trim(s: string): (r: string)
    ensures |r| <= |s|
    ensures |r| == 0 || (!IsSpace(r[0]) && !IsSpace(r[|r| - 1]))
    ensures |r| == 0 <==> AllSpace(s)
    ensures exists b :: 0 <= b <= |s| - |r| && r == s[b..b + |r|]
                         && AllSpace(s[..b]) && AllSpace(s[b + |r|..])
  {
    var b := SkipSpaces(s, 0);
    var e := TrimEndIndex(s, |s|);
    if e <= b then
      assert b < |s| ==> e > b;
      assert AllSpace(s[..0]) && AllSpace(s[0..]);
      ""
    else
      assert AllSpace(s[..b]) && AllSpace(s[e..]);
      s[b..e]
  }

  /** `s.startsWith(prefix)`. */
  predicate StartsWith(s: string, prefix: string) {
    |prefix| <= |s| && s[..|prefix|] == prefix
  }

  /** A non-empty run of non-space characters. */
  predicate IsWord(w: string) {
    |w| > 0 && NoSpace(w)
  }

  /** `s.split(/\s+/)`: the pieces between maximal runs of spaces, including an
      empty first (last) piece when `s` starts (ends) with a space. */
  function SplitWs(s: string): (pieces: seq<string>)
    ensures |pieces| >= 1
    ensures forall k :: 0 <= k < |pieces| ==> NoSpace(pieces[k])
    decreases |s|
  {
    var i := NextSpace(s, 0);
    if i == |s| then [s] else [s[..i]] + SplitWs(s[SkipSpaces(s, i)..])
  }

  /** `words.join(sep)`: the first word opens the result and the last word
      closes it; no words give the empty string. */
  function Join(words: seq<string>, sep: string): (r: string)
    ensures |words| == 0 ==> r == ""
    ensures |words| >= 1 ==> StartsWith(r, words[0])
  {
    if |words| == 0 then ""
    else if |words| == 1 then words[0]
    else words[0] + sep + Join(words[1..], sep)
  }

  /** A space-joined list of words is non-empty and neither starts nor ends
      with a space. */
  lemma {:induction false} JoinEnds(words: seq<string>)
    requires |words| >= 1
    requires forall k :: 0 <= k < |words| ==> IsWord(words[k])
    ensures |Join(words, " ")| > 0
    ensures !IsSpace(Join(words, " ")[0])
    ensures !IsSpace(Join(words, " ")[|Join(words, " ")| - 1])
    decreases |words|
  {
    assert IsWord(words[0]);
    if |words| > 1 {
      JoinEnds(words[1..]);
    }
  }

  /** Words joined by single spaces: non-empty, with non-space ends, and
      every space in it is a plain ' ' between two non-space characters. */
  predicate SingleSpaced(s: string) {
    && |s| > 0 && !IsSpace(s[0]) && !IsSpace(s[|s| - 1])
    && forall k :: 0 <= k < |s| ==>
         (IsSpace(s[k]) ==> s[k] == ' ' && 0 < k < |s| - 1 && !IsSpace(s[k - 1]) && !IsSpace(s[k + 1]))
  }

  /** `words.join(' ')` of non-empty, space-free words is single-spaced. */
  lemma {:induction false} JoinSingleSpaced(words: seq<string>)
    requires |words| >= 1
    requires forall k :: 0 <= k < |words| ==> IsWord(words[k])
    ensures SingleSpaced(Join(words, " "))
    decreases |words|
  {
    JoinEnds(words);
    var s := Join(words, " ");
    var w := words[0];
    assert IsWord(w);
    if |words| == 1 {
      assert s == w;
    } else {
      var rest := Join(words[1..], " ");
      assert s == w + " " + rest;
      JoinEnds(words[1..]);
      JoinSingleSpaced(words[1..]);
      forall k | 0 <= k < |s|
        ensures IsSpace(s[k]) ==> s[k] == ' ' && 0 < k < |s| - 1 && !IsSpace(s[k - 1]) && !IsSpace(s[k + 1])
      {
        if k < |w| {
          assert s[k] == w[k];
        } else if k == |w| {
          assert s[k - 1] == w[|w| - 1];
          assert s[k + 1] == rest[0];
        } else {
          var j := k - |w| - 1;
          assert s[k] == rest[j];
          if IsSpace(rest[j]) {
            assert s[k - 1] == rest[j - 1];
            assert s[k + 1] == rest[j + 1];
          }
        }
      }
    }
  }

  /** Splitting a string that neither starts nor ends with a space yields
      only words: no piece is empty and none holds a space. */
  lemma {:induction false} SplitYieldsWords(s: string)
    requires |s| > 0 && !IsSpace(s[0]) && !IsSpace(s[|s| - 1])
    ensures forall k :: 0 <= k < |SplitWs(s)| ==> IsWord(SplitWs(s)[k])
    decreases |s|
  {
    var i := NextSpace(s, 0);
    if i < |s| {
      var j := SkipSpaces(s, i);
      assert j < |s|;
      var rest := s[j..];
      assert rest[|rest| - 1] == s[|s| - 1];
      SplitYieldsWords(rest);
      assert SplitWs(s) == [s[..i]] + SplitWs(rest);
      assert IsWord(s[..i]);
    }
  }

  /** Joining words with single spaces and splitting again gives the words
      back. */
  lemma {:induction false} SplitJoin(words: seq<string>)
    requires |words| >= 1
    requires forall k :: 0 <= k < |words| ==> IsWord(words[k])
    ensures SplitWs(Join(words, " ")) == words
    decreases |words|
  {
    var w := words[0];
    if |words| == 1 {
      assert NextSpace(w, 0) == |w|;
    } else {
      var rest := Join(words[1..], " ");
      var s := w + " " + rest;
      assert Join(words, " ") == s;
      JoinEnds(words[1..]);
      var i := NextSpace(s, 0);
      assert s[|w|] == ' ';
      assert forall k :: 0 <= k < |w| ==> s[k] == w[k];
      assert i == |w|;
      var j := SkipSpaces(s, i);
      assert s[|w| + 1] == rest[0];
      assert j == |w| + 1;
      assert s[j..] == rest;
      assert s[..i] == w;
      SplitJoin(words[1..]);
    }
  }

  lemma JoinCons(w: string, pieces: seq<string>)
    requires |pieces| >= 1
    ensures Join([w] + pieces, " ") == w + " " + Join(pieces, " ")
  {
    assert ([w] + pieces)[1..] == pieces;
  }

  /** `split(/\s+/)` cuts exactly at the whitespace runs: joining its pieces
      with single spaces is the text with each run of whitespace replaced by
      one space.  With the pieces free of whitespace, this fixes them. */
  lemma {:induction false} SplitWsCollapses(s: string)
    ensures Join(SplitWs(s), " ") == CollapseRuns(IsSpace, ' ', s)
    decreases |s|
  {
    var i := NextSpace(s, 0);
    if i == |s| {
      assert SplitWs(s) == [s];
      CollapseKeepsPrefix(IsSpace, ' ', s, "");
      assert s + "" == s;
    } else {
      var j := SkipSpaces(s, i);
      var rest := s[j..];
      assert SplitWs(s) == [s[..i]] + SplitWs(rest);
      SplitWsCollapses(rest);
      JoinCons(s[..i], SplitWs(rest));
      CollapseAtGap(s, i, j);
    }
  }

  /** The rewrite of a text that has its first whitespace run at `s[i..j]`. */
  lemma CollapseAtGap(s: string, i: nat, j: nat)
    requires i < j <= |s|
    requires forall k :: 0 <= k < i ==> !IsSpace(s[k])
    requires forall k :: i <= k < j ==> IsSpace(s[k])
    requires j == |s| || !IsSpace(s[j])
    ensures CollapseRuns(IsSpace, ' ', s) == s[..i] + " " + CollapseRuns(IsSpace, ' ', s[j..])
  {
    var w := s[..i];
    var gap := s[i..j];
    var rest := s[j..];
    assert s == w + (gap + rest);
    CollapseKeepsPrefix(IsSpace, ' ', w, gap + rest);
    CollapseRunPrefix(IsSpace, ' ', gap, rest, false);
    CollapseRunEnds(IsSpace, ' ', rest);
  }
}

=== FILE: mime.dfy ===
/** The MIME types the upload intake admits and the extractor dispatches on. */
module Mime {
  const Pdf: string := "application/pdf"
  const Msword: string := "application/msword"
  const Docx: string := "application/vnd.openxmlformats-officedocument.wordprocessingml.document"
}

=== FILE: options.dfy ===
/** The optional value used wherever the source reads a field that may be
    `undefined` or `null`. */
module Options {

  datatype Option<+T> = None | Some(value: T) {

    /** The value, or `fallback` when absent (the source's `x ?? fallback`). */
    function GetOr(fallback: T): T {
      match this
      case Some(v) => v
      case None => fallback
    }
  }
}

=== FILE: ordering.dfy ===
/** Ordering of rows by a timestamp column, the `ORDER BY` of the store's
    queries.  Rows are named by id; `key` maps each id to the column value. */
module Ordering {

  /** Non-decreasing in `key` from left to right. */
  predicate SortedBy(key: map<nat, int>, s: seq<nat>) {
    forall i, j :: 0 <= i < j < |s| ==> s[i] in key && s[j] in key && key[s[i]] <= key[s[j]]
  }

  predicate AllKeyed(key: map<nat, int>, s: seq<nat>) {
    forall i :: 0 <= i < |s| ==> s[i] in key
  }

  /** Putting a smallest element in front keeps the order. */
  lemma PrependSorted(key: map<nat, int>, a: nat, t: seq<nat>)
    requires a in key && AllKeyed(key, t) && SortedBy(key, t)
    requires forall y :: y in t ==> key[a] <= key[y]
    ensures AllKeyed(key, [a] + t) && SortedBy(key, [a] + t)
  {
    var u := [a] + t;
    forall i, j | 0 <= i < j < |u| ensures u[i] in key && u[j] in key && key[u[i]] <= key[u[j]] {
      if i > 0 {
        assert u[i] == t[i - 1] && u[j] == t[j - 1];
      } else {
        assert u[j] == t[j - 1] && u[j] in t;
      }
    }
  }

  /** Inserts `x` before the first element whose key is not smaller. */
  function Insert(key: map<nat, int>, x: nat, s: seq<nat>): (r: seq<nat>)
    requires x in key && AllKeyed(key, s) && SortedBy(key, s)
    ensures AllKeyed(key, r) && SortedBy(key, r)
    ensures multiset(r) == multiset(s) + multiset{x}
  {
    if |s| == 0 then [x]
    else if key[x] <= key[s[0]] then
      PrependSorted(key, x, s);
      [x] + s
    else
      var rest := Insert(key, x, s[1..]);
      assert s == [s[0]] + s[1..];
      assert forall y :: y in rest ==> key[s[0]] <= key[y] by {
        forall y | y in rest ensures key[s[0]] <= key[y] {
          assert y in multiset(rest);
          if y != x {
            var k :| 0 <= k < |s[1..]| && s[1..][k] == y;
            assert s[k + 1] == y;
          }
        }
      }
      PrependSorted(key, s[0], rest);
      [s[0]] + rest
  }

  /** Insertion sort: a permutation of `s` ordered by `key`. */
  function SortBy(key: map<nat, int>, s: seq<nat>): (r: seq<nat>)
    requires AllKeyed(key, s)
    ensures AllKeyed(key, r) && SortedBy(key, r)
    ensures multiset(r) == multiset(s)
  {
    if |s| == 0 then []
    else
      assert s == [s[0]] + s[1..];
      Insert(key, s[0], SortBy(key, s[1..]))
  }

  /** The ids in `[lo, hi)` satisfying `p`, in increasing order. */
  function IdsWhere(p: nat -> bool, lo: nat, hi: nat): (ids: seq<nat>)
    decreases hi - lo
    ensures forall k :: 0 <= k < |ids| ==> lo <= ids[k] < hi && p(ids[k])
    ensures forall i, j :: 0 <= i < j < |ids| ==> ids[i] < ids[j]
    ensures forall c: nat :: lo <= c < hi && p(c) ==> c in ids
  {
    if lo >= hi then []
    else if p(lo) then [lo] + IdsWhere(p, lo + 1, hi)
    else IdsWhere(p, lo + 1, hi)
  }

  /** No id in the range satisfies `p`: nothing is found. */
  lemma {:induction false} IdsWhereNone(p: nat -> bool, lo: nat, hi: nat)
    requires forall c: nat :: lo <= c < hi ==> !p(c)
    ensures IdsWhere(p, lo, hi) == []
    decreases hi - lo
  {
    if lo < hi {
      IdsWhereNone(p, lo + 1, hi);
    }
  }

  /** Exactly one id in the range satisfies `p`: it alone is found. */
  lemma {:induction false} IdsWhereSingle(p: nat -> bool, lo: nat, hi: nat, x: nat)
    requires lo <= x < hi && p(x)
    requires forall c: nat :: lo <= c < hi && c != x ==> !p(c)
    ensures IdsWhere(p, lo, hi) == [x]
    decreases hi - lo
  {
    if lo == x {
      IdsWhereNone(p, lo + 1, hi);
    } else {
      IdsWhereSingle(p, lo + 1, hi, x);
    }
  }

  /** A permutation has the same members. */
  lemma {:induction false} PermutationKeepsMembers(r: seq<nat>, s: seq<nat>)
    requires multiset(r) == multiset(s)
    ensures forall x :: x in r <==> x in s
  {
    forall x ensures x in r <==> x in s {
      assert x in r <==> x in multiset(r);
      assert x in s <==> x in multiset(s);
    }
  }
}

=== FILE: runs.dfy ===
/** The rewrite `s.replace(/[P]+/g, rep)`: every maximal run of characters
    satisfying `p` becomes the single character `rep`, and every other
    character is kept.  The second and fourth stage of whitespace
    normalisation and the upload filename sanitiser are instances of it. */
module Runs {
  import opened Seqs

  /** No character satisfies `p` unless it is `rep`, and no two adjacent
      characters both satisfy `p`: the strings the rewrite leaves alone. */
  predicate Collapsed(p: char -> bool, rep: char, s: string) {
    && (forall k :: 0 <= k < |s| && p(s[k]) ==> s[k] == rep)
    && (forall k :: 0 < k < |s| ==> !(p(s[k - 1]) && p(s[k])))
  }

  /** The rewrite applied to `s`, where `inRun` says that the character just
      before `s` satisfied `p` (so a leading run continues that run). */
  function Collapse(p: char -> bool, rep: char, s: string, inRun: bool): (r: string)
    ensures |r| <= |s|
    ensures Collapsed(p, rep, r)
    ensures inRun && |r| > 0 ==> !p(r[0])
    ensures forall c :: c in r ==> c == rep || c in s
    decreases |s|
  {
    if |s| == 0 then ""
    else if p(s[0]) then (if inRun then "" else [rep]) + Collapse(p, rep, s[1..], true)
    else [s[0]] + Collapse(p, rep, s[1..], false)
  }

  function CollapseRuns(p: char -> bool, rep: char, s: string): string {
    Collapse(p, rep, s, false)
  }

  /** The number of maximal runs of `p`-characters in `s`, not counting a
      leading run that continues one already open (`inRun`). */
  function RunStarts(p: char -> bool, s: string, inRun: bool): nat {
    if |s| == 0 then 0
    else (if p(s[0]) && !inRun then 1 else 0) + RunStarts(p, s[1..], p(s[0]))
  }

  lemma {:induction false} CollapseIdentity(p: char -> bool, rep: char, s: string, inRun: bool)
    requires Collapsed(p, rep, s)
    requires inRun ==> |s| == 0 || !p(s[0])
    ensures Collapse(p, rep, s, inRun) == s
    decreases |s|
  {
    if |s| > 0 {
      var t := s[1..];
      assert Collapsed(p, rep, t) by {
        forall k | 0 < k < |t| ensures !(p(t[k - 1]) && p(t[k])) {
          assert t[k - 1] == s[k] && t[k] == s[k + 1];
        }
      }
      if p(s[0]) {
        assert |t| > 0 ==> !p(t[0]) by {
          if |t| > 0 { assert t[0] == s[1]; }
        }
      }
      CollapseIdentity(p, rep, t, p(s[0]));
      assert s == [s[0]] + t;
    }
  }

  /** The strings the rewrite leaves unchanged are exactly the collapsed
      ones. */
  lemma CollapseFixpoint(p: char -> bool, rep: char, s: string)
    ensures CollapseRuns(p, rep, s) == s <==> Collapsed(p, rep, s)
  {
    if Collapsed(p, rep, s) {
      CollapseIdentity(p, rep, s, false);
    }
  }

  /** Rewriting twice is rewriting once. */
  lemma CollapseIdempotent(p: char -> bool, rep: char, s: string)
    ensures CollapseRuns(p, rep, CollapseRuns(p, rep, s)) == CollapseRuns(p, rep, s)
  {
    CollapseFixpoint(p, rep, CollapseRuns(p, rep, s));
  }

  /** Characters that neither satisfy `p` nor equal `rep` come through the
      rewrite unchanged and in their original order. */
  lemma {:induction false} CollapseKeeps(p: char -> bool, rep: char, q: char -> bool, s: string, inRun: bool)
    requires forall c :: q(c) ==> !p(c) && c != rep
    ensures Filter(q, Collapse(p, rep, s, inRun)) == Filter(q, s)
    decreases |s|
  {
    if |s| > 0 {
      var head: string := if p(s[0]) then (if inRun then "" else [rep]) else [s[0]];
      var tail := Collapse(p, rep, s[1..], p(s[0]));
      assert Collapse(p, rep, s, inRun) == head + tail;
      FilterAppend(q, head, tail);
      CollapseKeeps(p, rep, q, s[1..], p(s[0]));
    }
  }

  /** Each maximal run of `p`-characters contributes exactly one `rep`; a
      `rep` that does not satisfy `p` is also kept where it stood. */
  lemma {:induction false} CollapseCount(p: char -> bool, rep: char, s: string, inRun: bool)
    ensures Count(rep, Collapse(p, rep, s, inRun))
            == RunStarts(p, s, inRun) + (if p(rep) then 0 else Count(rep, s))
    decreases |s|
  {
    if |s| > 0 {
      var head: string := if p(s[0]) then (if inRun then "" else [rep]) else [s[0]];
      var tail := Collapse(p, rep, s[1..], p(s[0]));
      assert Collapse(p, rep, s, inRun) == head + tail;
      CountAppend(rep, head, tail);
      CollapseCount(p, rep, s[1..], p(s[0]));
    }
  }

  /** A character that neither satisfies `p` nor equals `rep` occurs as often
      after the rewrite as before. */
  lemma {:induction false} CollapseCountOther(p: char -> bool, rep: char, x: char, s: string, inRun: bool)
    requires !p(x) && x != rep
    ensures Count(x, Collapse(p, rep, s, inRun)) == Count(x, s)
    decreases |s|
  {
    if |s| > 0 {
      var head: string := if p(s[0]) then (if inRun then "" else [rep]) else [s[0]];
      var tail := Collapse(p, rep, s[1..], p(s[0]));
      assert Collapse(p, rep, s, inRun) == head + tail;
      CountAppend(x, head, tail);
      CollapseCountOther(p, rep, x, s[1..], p(s[0]));
    }
  }

  /** A prefix free of `p`-characters passes through the rewrite unchanged. */
  lemma {:induction false} CollapseKeepsPrefix(p: char -> bool, rep: char, t: string, u: string)
    requires forall k :: 0 <= k < |t| ==> !p(t[k])
    ensures Collapse(p, rep, t + u, false) == t + Collapse(p, rep, u, false)
    decreases |t|
  {
    if |t| > 0 {
      assert (t + u)[0] == t[0];
      assert (t + u)[1..] == t[1..] + u;
      CollapseKeepsPrefix(p, rep, t[1..], u);
      assert t == [t[0]] + t[1..];
    } else {
      assert t + u == u;
    }
  }

  /** A leading run of `p`-characters becomes one `rep`, or nothing when it
      continues a run already open; what follows starts inside a run. */
  lemma {:induction false} CollapseRunPrefix(p: char -> bool, rep: char, t: string, u: string, inRun: bool)
    requires |t| > 0 && forall k :: 0 <= k < |t| ==> p(t[k])
    ensures Collapse(p, rep, t + u, inRun) == (if inRun then "" else [rep]) + Collapse(p, rep, u, true)
    decreases |t|
  {
    assert (t + u)[0] == t[0];
    assert (t + u)[1..] == t[1..] + u;
    if |t| > 1 {
      CollapseRunPrefix(p, rep, t[1..], u, true);
    } else {
      assert t[1..] + u == u;
    }
  }

  /** An open run ends where a character outside the class (or the string)
      begins. */
  lemma CollapseRunEnds(p: char -> bool, rep: char, u: string)
    requires |u| == 0 || !p(u[0])
    ensures Collapse(p, rep, u, true) == Collapse(p, rep, u, false)
  {
  }
}

=== FILE: seqs.dfy ===
/** Order-preserving selections and occurrence counts over sequences, shared
    by the string models. */
module Seqs {

  /** The elements of `s` that satisfy `p`, in their original order. */
  function Filter<T>(p: T -> bool, s: seq<T>): (r: seq<T>)
    ensures |r| <= |s|
    ensures forall k :: 0 <= k < |r| ==> p(r[k])
  {
    if |s| == 0 then [] else (if p(s[0]) then [s[0]] else []) + Filter(p, s[1..])
  }

  lemma FilterAppend<T>(p: T -> bool, a: seq<T>, b: seq<T>)
    ensures Filter(p, a + b) == Filter(p, a) + Filter(p, b)
  {
    if |a| == 0 {
      assert a + b == b;
    } else {
      assert (a + b)[1..] == a[1..] + b;
      FilterAppend(p, a[1..], b);
    }
  }

  /** The number of occurrences of `x` in `s`. */
  function Count<T(==)>(x: T, s: seq<T>): (n: nat)
    ensures n <= |s|
  {
    if |s| == 0 then 0 else (if s[0] == x then 1 else 0) + Count(x, s[1..])
  }

  lemma CountAppend<T>(x: T, a: seq<T>, b: seq<T>)
    ensures Count(x, a + b) == Count(x, a) + Count(x, b)
  {
    if |a| == 0 {
      assert a + b == b;
    } else {
      assert (a + b)[1..] == a[1..] + b;
      CountAppend(x, a[1..], b);
    }
  }
}

=== FILE: upload.dfy ===
/** The upload intake middleware: the MIME allow-list, the size limit, and the
    name under which multer's disk storage keeps the file.  The clock and the
    random number of the name are parameters. */
module Upload {
  import opened Options
  import opened Seqs
  import opened JsNumber
  import opened Runs
  import opened Errors
  import Mime

  /** The class `[a-zA-Z0-9_.-]`. */
  predicate IsSafeChar(c: char) {
    ('a' <= c <= 'z') || ('A' <= c <= 'Z') || ('0' <= c <= '9') || c == '_' || c == '.' || c == '-'
  }

  predicate IsUnsafeChar(c: char) {
    !IsSafeChar(c)
  }

  /** Safe characters other than the replacement `_`. */
  predicate IsKeptChar(c: char) {
    IsSafeChar(c) && c != '_'
  }

  /** `originalname.replace(/[^a-zA-Z0-9_.-]+/g, '_')`. */
  function SanitizeFilename(name: string): (safe: string)
    ensures |safe| <= |name|
    ensures forall k :: 0 <= k < |safe| ==> IsSafeChar(safe[k])
  {
    CollapseRuns(IsUnsafeChar, '_', name)
  }

  /** Each maximal run of unsafe characters becomes exactly one `_`, the `_`
      already present stay, and every other safe character is kept in its
      original order. */
  lemma SanitizeRuns(name: string)
    ensures Count('_', SanitizeFilename(name)) == RunStarts(IsUnsafeChar, name, false) + Count('_', name)
    ensures Filter(IsKeptChar, SanitizeFilename(name)) == Filter(IsKeptChar, name)
  {
    CollapseCount(IsUnsafeChar, '_', name, false);
    CollapseKeeps(IsUnsafeChar, '_', IsKeptChar, name, false);
  }

  /** The sanitiser changes a name exactly when it holds an unsafe character,
      so sanitising twice is sanitising once. */
  lemma SanitizeFixpoint(name: string)
    ensures SanitizeFilename(name) == name <==> forall k :: 0 <= k < |name| ==> IsSafeChar(name[k])
    ensures SanitizeFilename(SanitizeFilename(name)) == SanitizeFilename(name)
  {
    CollapseFixpoint(IsUnsafeChar, '_', name);
    CollapseIdempotent(IsUnsafeChar, '_', name);
  }

  /** `` `${Date.now()}-${Math.round(Math.random() * 1e9)}` ``. */
  function UniquePrefix(nowMs: nat, random: nat): string {
    Decimal(nowMs) + "-" + Decimal(random)
  }

  /** The name multer's `filename` callback chooses: it ends with the
      sanitised original name, and it is made of safe characters whenever the
      unique prefix is. */
  function StoredFilename(unique: string, originalName: string): (stored: string)
    ensures |stored| > |SanitizeFilename(originalName)|
    ensures stored[|stored| - |SanitizeFilename(originalName)|..] == SanitizeFilename(originalName)
    ensures (forall k :: 0 <= k < |unique| ==> IsSafeChar(unique[k]))
            ==> forall k :: 0 <= k < |stored| ==> IsSafeChar(stored[k])
  {
    var safe := SanitizeFilename(originalName);
    var stored := unique + "-" + safe;
    assert forall k :: |unique| < k < |stored| ==> stored[k] == safe[k - |unique| - 1];
    stored
  }

  /** Whatever the client called the file, the stored name is made of safe
      characters only; in particular it holds no `/` or `\`, so it is a
      single path segment inside the upload directory.  It ends with the
      sanitised original name. */
  lemma StoredNameIsSegment(nowMs: nat, random: nat, originalName: string)
    ensures var stored := StoredFilename(UniquePrefix(nowMs, random), originalName);
            && (forall k :: 0 <= k < |stored| ==> IsSafeChar(stored[k]))
            && '/' !in stored && '\\' !in stored
            && |stored| > 0 && stored[|stored| - |SanitizeFilename(originalName)|..] == SanitizeFilename(originalName)
  {
    var a := Decimal(nowMs);
    var b := Decimal(random);
    var unique := UniquePrefix(nowMs, random);
    forall k | 0 <= k < |unique| ensures IsSafeChar(unique[k]) {
      if k < |a| {
        assert unique[k] == a[k];
      } else if k > |a| {
        assert unique[k] == b[k - |a| - 1];
      }
    }
  }

  const AllowedMimes: set<string> := {Mime.Pdf, Mime.Msword, Mime.Docx}

  const UnsupportedUpload: JsError := OtherError(Some("Unsupported file type"), None)

  datatype FilterDecision = Accept | Reject(error: JsError)

  /** `fileFilter`: exactly the three document types pass. */
  function FileFilter(mimeType: string): (d: FilterDecision)
    ensures d.Accept? <==> mimeType == Mime.Pdf || mimeType == Mime.Msword || mimeType == Mime.Docx
    ensures d.Reject? ==> d.error == UnsupportedUpload
  {
    if mimeType in AllowedMimes then Accept else Reject(UnsupportedUpload)
  }

  const DefaultMaxUploadMb: int := 50

  /** `MAX_UPLOAD_MB * 1024 * 1024`, with `MAX_UPLOAD_MB` read by the
      `parseInt(env || '', 10) || 50` idiom. */
  function FileSizeLimit(env: Option<string>): (limit: int)
    ensures limit != 0 && limit % 1_048_576 == 0
    ensures env.None? ==> limit == 52_428_800
    ensures limit != 52_428_800 ==> env.Some? && ParseInt(env.value) == Some(limit / 1_048_576)
  {
    var mb := EnvIntOr(env, DefaultMaxUploadMb);
    assert mb * 1024 * 1024 == mb * 1_048_576;
    mb * 1024 * 1024
  }

  /** The limit is 50 MiB when the variable is absent or zero, and the given
      number of MiB when it is a positive decimal number. */
  lemma FileSizeLimitDefault(n: nat)
    ensures FileSizeLimit(None) == 52_428_800
    ensures FileSizeLimit(Some(Decimal(n))) == (if n == 0 then 52_428_800 else n * 1_048_576)
  {
    EnvIntOrDecimal(n, DefaultMaxUploadMb);
  }

  /** multer's error for a file over the limit. */
  const FileTooLarge: JsError := OtherError(Some("File too large"), None)

  datatype Intake = Stored(filename: string) | IntakeFailed(error: JsError)

  /** The intake of one file: the filter runs first, then the size limit,
      and only then is the file kept under its stored name. */
  function UploadIntake(mimeType: string, size: nat, originalName: string, env: Option<string>,
                        nowMs: nat, random: nat): (r: Intake)
    ensures r.Stored? <==> mimeType in AllowedMimes && size <= FileSizeLimit(env)
    ensures r.Stored? ==> r.filename == StoredFilename(UniquePrefix(nowMs, random), originalName)
    ensures mimeType !in AllowedMimes ==> r == IntakeFailed(UnsupportedUpload)
  {
    match FileFilter(mimeType)
    case Reject(error) => IntakeFailed(error)
    case Accept =>
      if size > FileSizeLimit(env) then IntakeFailed(FileTooLarge)
      else Stored(StoredFilename(UniquePrefix(nowMs, random), originalName))
  }

  /** Both intake failures are plain errors, so the error middleware answers
      them with 500, not with a 413 or 415. */
  lemma IntakeFailuresAre500(mimeType: string, size: nat, originalName: string, env: Option<string>,
                             nowMs: nat, random: nat, isProduction: bool)
    requires UploadIntake(mimeType, size, originalName, env, nowMs, random).IntakeFailed?
    ensures ErrorHandler(UploadIntake(mimeType, size, originalName, env, nowMs, random).error, isProduction).status == 500
  {
  }
}

=== FILE: users.dfy ===
/** The user controller as a refresh-token state machine over the user table.
    The table is a sequence: the user with id `k` is element `k - 1`, since ids
    are handed out by auto-increment and no user is ever deleted.  bcrypt and
    jsonwebtoken are oracles; the tokens `jwt.sign` produced during a request
    are inputs. */
module Users {
  import opened Options
  import opened Errors
  import opened Auth

  datatype User = User(email: string, passwordHash: string, refreshToken: Option<string>)

  /** The unique index on `email`. */
  predicate UniqueEmails(users: seq<User>) {
    forall i, j :: 0 <= i < j < |users| ==> users[i].email != users[j].email
  }

  /** `User.findOne({ where: { email } })`: the id of the user with that
      email, if any. */
  function FindByEmail(users: seq<User>, email: string): (id: Option<nat>)
    ensures id.Some? ==> 1 <= id.value <= |users| && users[id.value - 1].email == email
    ensures id.None? ==> forall k :: 0 <= k < |users| ==> users[k].email != email
  {
    if |users| == 0 then None
    else if users[|users| - 1].email == email then Some(|users|)
    else FindByEmail(users[..|users| - 1], email)
  }

  predicate HasUser(users: seq<User>, id: int) {
    1 <= id <= |users|
  }

  /** `User.update({ refreshToken }, { where: { id } })`: only that user's
      token changes, and nothing changes when there is no such user. */
  function SetRefreshToken(users: seq<User>, id: int, token: Option<string>): (r: seq<User>)
    ensures |r| == |users|
    ensures forall k :: 0 <= k < |users| && k != id - 1 ==> r[k] == users[k]
    ensures HasUser(users, id) ==> r[id - 1] == users[id - 1].(refreshToken := token)
  {
    if HasUser(users, id) then users[id - 1 := users[id - 1].(refreshToken := token)] else users
  }

  /** The tokens `jwt.sign` produced while handling one request. */
  datatype Minted = Minted(access: string, refresh: string)

  datatype AuthBody = Session(userId: nat, email: string, accessToken: string, refreshToken: string)
                    | Tokens(accessToken: string, refreshToken: string)
                    | LoggedOut

  datatype UserResult = UserResult(outcome: Outcome<AuthBody>, users: seq<User>)

  const CredentialsRequired: JsError := ApiError(400, "Email and password are required", None)
  const EmailInUse: JsError := ApiError(409, "Email already in use", None)
  const InvalidCredentials: JsError := ApiError(401, "Invalid credentials", None)
  const TokenRequired: JsError := ApiError(400, "Refresh token is required", None)
  const InvalidRefreshToken: JsError := ApiError(401, "Invalid refresh token", None)
  const InvalidEmail: JsError := ValidationError([ValidationItem("Please provide a valid email address", "email")])

  /** What `getEnv('JWT_REFRESH_SECRET')` throws when the variable is unset or empty. */
  const MissingRefreshSecret: JsError := OtherError(Some("Missing required env var JWT_REFRESH_SECRET"), None)

  predicate Present(field: Option<string>) {
    field.Some? && field.value != ""
  }

  /** `signup`.  `hash` is bcrypt, `isEmail` the model's email validator,
      `refreshSecret` the `JWT_REFRESH_SECRET` variable, read only once the
      user row exists. */
  function Signup(users: seq<User>, email: Option<string>, password: Option<string>,
                  hash: string -> string, isEmail: string -> bool,
                  refreshSecret: Option<string>, minted: Minted): (r: UserResult)
    ensures !Present(email) || !Present(password) ==> r == UserResult(Next(CredentialsRequired), users)
    ensures Present(email) && Present(password) && FindByEmail(users, email.value).Some?
            ==> r == UserResult(Next(EmailInUse), users)
    ensures Present(email) && Present(password) && FindByEmail(users, email.value).None? && !isEmail(email.value)
            ==> r == UserResult(Next(InvalidEmail), users)
    ensures r.outcome.Next? && r.outcome.error != MissingRefreshSecret ==> r.users == users
    ensures r.outcome == Next(MissingRefreshSecret) ==>
              r.users == users + [User(email.value, hash(password.value), None)]
    ensures r.outcome.Reply? ==>
              && r.outcome.status == 201
              && SecretUsable(refreshSecret)
              && r.users == users + [User(email.value, hash(password.value), Some(minted.refresh))]
              && r.outcome.body == Session(|users| + 1, email.value, minted.access, minted.refresh)
    ensures Present(email) && Present(password) && FindByEmail(users, email.value).None? && isEmail(email.value)
            ==> (r.outcome.Reply? <==> SecretUsable(refreshSecret))
                && (!SecretUsable(refreshSecret) ==> r.outcome == Next(MissingRefreshSecret))
    ensures UniqueEmails(users) ==> UniqueEmails(r.users)
  {
    if !Present(email) || !Present(password) then UserResult(Next(CredentialsRequired), users)
    else if FindByEmail(users, email.value).Some? then UserResult(Next(EmailInUse), users)
    else if !isEmail(email.value) then UserResult(Next(InvalidEmail), users)
    else
      var created := users + [User(email.value, hash(password.value), None)];
      var id := |users| + 1;
      if !SecretUsable(refreshSecret) then UserResult(Next(MissingRefreshSecret), created)
      else
        UserResult(Reply(201, Session(id, email.value, minted.access, minted.refresh)),
                   SetRefreshToken(created, id, Some(minted.refresh)))
  }

  /** `login`.  `compare` is `bcrypt.compare`. */
  function Login(users: seq<User>, email: Option<string>, password: Option<string>,
                 compare: (string, string) -> bool, refreshSecret: Option<string>, minted: Minted): (r: UserResult)
    ensures !Present(email) || !Present(password) ==> r == UserResult(Next(CredentialsRequired), users)
    ensures r.outcome.Next? ==> r.users == users
    ensures r.outcome.Next? && Present(email) && Present(password)
            ==> r.outcome.error == InvalidCredentials || r.outcome.error == MissingRefreshSecret
    ensures r.outcome == Next(MissingRefreshSecret) ==> !SecretUsable(refreshSecret)
    ensures r.outcome.Reply? ==>
              && r.outcome.status == 200
              && SecretUsable(refreshSecret)
              && var id := FindByEmail(users, email.value);
                 && id.Some?
                 && compare(password.value, users[id.value - 1].passwordHash)
                 && r.outcome.body == Session(id.value, email.value, minted.access, minted.refresh)
                 && r.users == SetRefreshToken(users, id.value, Some(minted.refresh))
    ensures Present(email) && Present(password) ==>
              var id := FindByEmail(users, email.value);
              var known := id.Some? && users[id.value - 1].passwordHash != ""
                           && compare(password.value, users[id.value - 1].passwordHash);
              && (!known ==> r.outcome == Next(InvalidCredentials))
              && (known && !SecretUsable(refreshSecret) ==> r.outcome == Next(MissingRefreshSecret))
              && (known && SecretUsable(refreshSecret) ==> r.outcome.Reply?)
    ensures UniqueEmails(users) ==> UniqueEmails(r.users)
  {
    if !Present(email) || !Present(password) then UserResult(Next(CredentialsRequired), users)
    else
      var id := FindByEmail(users, email.value);
      if id.None? || users[id.value - 1].passwordHash == "" then UserResult(Next(InvalidCredentials), users)
      else if !compare(password.value, users[id.value - 1].passwordHash) then UserResult(Next(InvalidCredentials), users)
      else if !SecretUsable(refreshSecret) then UserResult(Next(MissingRefreshSecret), users)
      else
        UserResult(Reply(200, Session(id.value, email.value, minted.access, minted.refresh)),
                   SetRefreshToken(users, id.value, Some(minted.refresh)))
  }

  /** An unknown email and a wrong password are answered identically. */
  lemma LoginFailuresAlike(users: seq<User>, unknown: string, known: string, password: string,
                           compare: (string, string) -> bool, secret: Option<string>, minted: Minted)
    requires unknown != "" && known != "" && password != ""
    requires FindByEmail(users, unknown).None?
    requires FindByEmail(users, known).Some?
    requires !compare(password, users[FindByEmail(users, known).value - 1].passwordHash)
    ensures Login(users, Some(unknown), Some(password), compare, secret, minted)
            == Login(users, Some(known), Some(password), compare, secret, minted)
            == UserResult(Next(InvalidCredentials), users)
  {
  }

  /** `refresh`: the presented token must verify, name an existing user, and
      equal the token stored for that user; the stored token then rotates. */
  function Refresh(users: seq<User>, token: Option<string>, secret: Option<string>,
                   verify: (string, string) -> Verified, minted: Minted): (r: UserResult)
    ensures !Present(token) ==> r == UserResult(Next(TokenRequired), users)
    ensures r.outcome.Next? ==> r.users == users
    ensures r.outcome.Reply? ==>
              && r.outcome == Reply(200, Tokens(minted.access, minted.refresh))
              && Present(token) && SecretUsable(secret)
              && var v := verify(token.value, secret.value);
                 && v.Claims? && SubjectId(v.sub).Some?
                 && var id := SubjectId(v.sub).value;
                    && HasUser(users, id)
                    && users[id - 1].refreshToken == token
                    && r.users == SetRefreshToken(users, id, Some(minted.refresh))
    ensures Present(token) && !SecretUsable(secret) ==> r.outcome == Next(MissingRefreshSecret)
    ensures Present(token) && SecretUsable(secret) ==>
              var v := verify(token.value, secret.value);
              && (v.VerifyThrew? ==> r.outcome == Next(JwtError(v.message)))
              && (v.StringPayload? ==> r.outcome == Next(InvalidRefreshToken))
              && (v.Claims? ==>
                    var id := SubjectId(v.sub);
                    var current := id.Some? && HasUser(users, id.value) && users[id.value - 1].refreshToken == token;
                    && (current ==> r.outcome.Reply?)
                    && (!current ==> r.outcome == Next(InvalidRefreshToken)))
    ensures UniqueEmails(users) ==> UniqueEmails(r.users)
  {
    if !Present(token) then UserResult(Next(TokenRequired), users)
    else if !SecretUsable(secret) then UserResult(Next(MissingRefreshSecret), users)
    else
      match verify(token.value, secret.value)
      case VerifyThrew(message) => UserResult(Next(JwtError(message)), users)
      case StringPayload => UserResult(Next(InvalidRefreshToken), users)
      case Claims(sub) =>
        var id := SubjectId(sub);
        if id.None? then UserResult(Next(InvalidRefreshToken), users)
        else if !HasUser(users, id.value) || users[id.value - 1].refreshToken != token then
          UserResult(Next(InvalidRefreshToken), users)
        else
          UserResult(Reply(200, Tokens(minted.access, minted.refresh)),
                     SetRefreshToken(users, id.value, Some(minted.refresh)))
  }

  /** `payload?.sub` is truthy: a non-zero number or a non-empty string. */
  predicate Truthy(sub: Sub) {
    match sub
    case NoSub => false
    case NumSub(n) => n != 0
    case StrSub(s) => s != ""
  }

  /** `logout`: the token is only decoded, never verified, and the stored
      token of the user it names is cleared. */
  function Logout(users: seq<User>, token: Option<string>, decode: string -> Sub): (r: UserResult)
    ensures !Present(token) ==> r == UserResult(Next(TokenRequired), users)
    ensures Present(token) ==> r.outcome == Reply(200, LoggedOut)
    ensures Present(token) && Truthy(decode(token.value)) && SubjectId(decode(token.value)).Some?
            ==> r.users == SetRefreshToken(users, SubjectId(decode(token.value)).value, None)
    ensures Present(token) && !Truthy(decode(token.value)) ==> r.users == users
    ensures UniqueEmails(users) ==> UniqueEmails(r.users)
  {
    if !Present(token) then UserResult(Next(TokenRequired), users)
    else
      var sub := decode(token.value);
      var id := SubjectId(sub);
      var users' := if Truthy(sub) && id.Some? then SetRefreshToken(users, id.value, None) else users;
      UserResult(Reply(200, LoggedOut), users')
  }


  /** Login stores the token it returns, so the next refresh with it succeeds. */
  lemma LoginThenRefresh(users: seq<User>, email: string, password: string, compare: (string, string) -> bool,
                         minted: Minted, secret: string, verify: (string, string) -> Verified, next: Minted)
    requires Login(users, Some(email), Some(password), compare, Some(secret), minted).outcome.Reply?
    requires minted.refresh != "" && secret != ""
    requires verify(minted.refresh, secret) == Claims(NumSub(FindByEmail(users, email).value))
    ensures var after := Login(users, Some(email), Some(password), compare, Some(secret), minted).users;
            Refresh(after, Some(minted.refresh), Some(secret), verify, next).outcome
            == Reply(200, Tokens(next.access, next.refresh))
  {
    var r := Login(users, Some(email), Some(password), compare, Some(secret), minted);
    var id := FindByEmail(users, email).value;
    assert r.users == SetRefreshToken(users, id, Some(minted.refresh));
    assert HasUser(r.users, id) && r.users[id - 1].refreshToken == Some(minted.refresh);
  }

  /** A signed-up user can log in with the same password, given that bcrypt
      accepts a password against its own hash. */
  lemma SignupThenLogin(users: seq<User>, email: string, password: string,
                        hash: string -> string, isEmail: string -> bool, compare: (string, string) -> bool,
                        secret: Option<string>, minted: Minted, next: Minted)
    requires Signup(users, Some(email), Some(password), hash, isEmail, secret, minted).outcome.Reply?
    requires hash(password) != "" && compare(password, hash(password))
    ensures var after := Signup(users, Some(email), Some(password), hash, isEmail, secret, minted).users;
            Login(after, Some(email), Some(password), compare, secret, next).outcome
            == Reply(200, Session(|users| + 1, email, next.access, next.refresh))
  {
    var after := Signup(users, Some(email), Some(password), hash, isEmail, secret, minted).users;
    assert after[|after| - 1].email == email;
  }

  /** Rotation: once a refresh succeeds with a new token different from the
      presented one, the presented token no longer refreshes. */
  lemma RefreshRotates(users: seq<User>, token: string, secret: Option<string>,
                       verify: (string, string) -> Verified, minted: Minted, next: Minted)
    requires Refresh(users, Some(token), secret, verify, minted).outcome.Reply?
    requires minted.refresh != token
    ensures var after := Refresh(users, Some(token), secret, verify, minted).users;
            Refresh(after, Some(token), secret, verify, next) == UserResult(Next(InvalidRefreshToken), after)
  {
  }

  /** Logout revokes: afterwards no token that verifies to the logged-out
      user refreshes. */
  lemma LogoutRevokes(users: seq<User>, token: string, decode: string -> Sub, id: int,
                      presented: string, secret: Option<string>, verify: (string, string) -> Verified, minted: Minted)
    requires token != "" && Truthy(decode(token)) && SubjectId(decode(token)) == Some(id)
    requires SecretUsable(secret) && verify(presented, secret.value).Claims?
    requires SubjectId(verify(presented, secret.value).sub) == Some(id)
    ensures var after := Logout(users, Some(token), decode).users;
            Refresh(after, Some(presented), secret, verify, minted).outcome.Next?
  {
  }
}
